=== FILE: README.md ===
# snix manifest resolution, item installers and log colouring, in Dafny

snix is a workstation bootstrapper. A JSON manifest lists the packages to
install (`items`, each a list of `names` and a `via` descriptor), the
repositories to clone (`repos`), the custom scripts to run (`customScripts`),
a `config` block, and `includes` of group manifests held in other
repositories. This project models the core of the program:

- **item.py**: `Item.__init__`'s dict guard, `CommandBuilder.build_install_cmd`
  and `Item.install`. The two regular expressions are modelled by a small
  anchored matcher (module `Regex`) that has ASCII `re.I` and the `$` that
  also matches before a final newline. Their meaning is proved in plain terms:
  - the outer test accepts "brew" or "brew-cask" in any letter case;
  - the inner test, which lacks `re.I`, accepts only "brew" and "Brew";
  - so "BREW" is installed as a cask.
  Whether `shlex.split` raises on the built command line is modelled by
  module `Shlex`, a state machine over quotes and backslashes.
- **context.py**: `construct_from`, `_construct`, `_collect_includes`,
  `_collect_from_file`, `get_items`, `get_repos` and `get_custom_scripts`.
  The resolver passes its state along: each step takes the lists gathered so
  far and returns them as they stand when it returns or raises. A raised
  exception is an `Error` value. Four behaviours of the code are proved:
  - what the includes contribute comes before the manifest's own entries;
  - only the file of the last include entry is read, and the earlier entries
    only cause clones;
  - an included manifest's includes are followed only when it has the
    singular key `include`;
  - an empty `includes` list leaves the include file unbound.

  The root `config` block is laid over every item, repository and script
  context, so a `name` or `via` key in it replaces every item's own.
- **snixContext.py**: the same resolver, rooted at the configured
  `snix.home`. It validates nothing, and its contexts carry no
  configuration.
- **snixItem.py**: `Installer.forItem`, which checks for brew, then a URL,
  then falls back to a raw command. Only the fallback yields an installer.
  Also `CommandInstaller`, and `Item`'s logging delegation of
  install/remove/update.
- **snixLogger.py**: `ColorizedStreamHandler.colorize` and the choice between
  plain and coloured output in `emit`.

Modules follow the program: `Items` (item.py), `Context` (context.py),
`SnixContext` (snixContext.py), `SnixItems` (snixItem.py) and `Logger`
(snixLogger.py). Shared pieces have their own modules:
- `Manifests`: the parsed manifest, the accumulated lists, the include loop
  and the context builders;
- `Paths`: `os.path.join` and the directory derived from a repository URL;
- `Entities`: `Repo` and `Script`;
- `Runtime`: errors and effects;
- `Strings`, `Regex` and `Shlex`: the Python string, `re` and `shlex` behaviour used;
- `Wrappers`: `Option` and `Result`.

The file system is a snapshot (`FileSystem`) with three parts:
- the parsed manifest at each path, as it stands after the include loop's
  clones (a clone is what brings an include file in on a first run);
- the paths where a schema document exists;
- the names the `os.path.exists` tests report present.

Schema validation is a predicate parameter. The two path rules of the
include loop, the clone directory and the include file, form a `Layout`
parameter. The program's own rules are `SnixLayout`, and
`Context.ConstructFrom` and `SnixContext.ConstructFrom` are the resolvers
fixed to them. The merge-order lemmas are stated for any layout, so they
hold for these.

Behaviour of the code that a reader might not expect, and that the model
keeps:
- A manifest's own entries are appended after what its includes contribute.
- Only the last include file is read; earlier include entries only cause
  clones.
- The outer `brew` test ignores case, but the inner one does not: only
  `brew` and `Brew` get the plain install, and every other accepted spelling
  gets the cask install.
- The schema is read from `<root>/_snix/schema.json`.
- The clone directory is tested relative to the working directory, by its
  bare name, not under the install root.
- Only the root manifest's `config` is kept. An included manifest's
  `config` is read only for its `snix_root`, and only when it has the key
  `include`: that root is where its clones run and its include file is
  looked up, and a missing `config` or `snix_root` there raises KeyError.
- `os.path.exists('')` is false, so a repository URL ending in `/`, whose
  derived directory is empty, is cloned every time.
- Manifest strings are unicode, as `json.load` returns them, and the
  templates they are formatted into are byte strings; a non-ASCII item
  name therefore makes `Item.install` in item.py raise UnicodeEncodeError
  before anything is logged or run.

## Model

| member | source | states |
|---|---|---|
| Items.NewItem | item.py:19-23 | an item is built exactly when the argument is a dict, and keeps that dict; anything else aborts with the configuration message |
| Items.BuildInstallCmd | item.py:50-63 | missing `via` or `name` raise KeyError; there is no command exactly when `via` is not brew/brew-cask in some case (with an optional final newline); a non-ASCII name raises UnicodeEncodeError; for an ASCII name "brew"/"Brew" give `brew install <name>` and every other accepted spelling gives `brew cask install <name>`; never through a shell |
| Items.Install | item.py:26-32 | succeeds exactly when the item has an ASCII name that `shlex.split` can split and a brew `via`; a non-ASCII name raises UnicodeEncodeError before anything is logged or run; a name leaving a quotation open or ending in a backslash logs the first line and then raises ValueError; on success its effects are exactly: the log line `Installing <name>...` followed by the command, the command run without a shell (`brew install <name>` for `brew`/`Brew`, otherwise `brew cask install <name>`), and the log line ending `Done!. StatusCode:<exit status>`; a non-brew `via` fails unpacking None before anything runs |
| Items.PrefixesSplit | item.py:29-30 | `brew install ` and `brew cask install ` contain no quote or backslash, so the command line `shlex.split` receives splits exactly when the name does |
| Shlex.FinalConcat | item.py:30 | `shlex.split`'s lexer reads a concatenation as its first part, then its second from where the first left off |
| Shlex.PlainPrefix | item.py:30 | a prefix without quotes or backslashes does not change whether `shlex.split` raises |
| Shlex.SplitExamples | item.py:30 | `a"b` (open quotation) and `a\` (trailing backslash) make `shlex.split` raise; `'a b'` and `a\"b` do not |
| Items.BrewPatternMeaning | item.py:51 | `^[bB]rew(-[cC]ask)?$` under `re.I` matches exactly "brew" and "brew-cask" in any letter case |
| Items.PlainBrewMeaning | item.py:57 | `^[bB]rew$` without `re.I` matches exactly "brew" and "Brew" |
| Items.BrewViaMeaning | item.py:51-57 | both tests as `re.match` applies them, where `$` also matches before a final newline, stated without the regex |
| Items.AllCapsBrewInstallsCask | item.py:56-62 | `via` "BREW" passes the outer test, fails the inner one, and, for an ASCII name, is installed as a cask |
| Items.TrailingNewlineBrew | item.py:56-59 | `via` "brew" followed by a newline still gets the plain `brew install` for an ASCII name |
| SnixItems.Classify | snixItem.py:30-41 | the brew branch is taken exactly for "brew" in any case (optionally newline-terminated); the URL branch exactly for other values with a scheme and a network location; the fallback otherwise |
| SnixItems.BrewNameMeaning | snixItem.py:31-35 | `^brew$` with `re.I` under `re.match` accepts exactly "brew" in any letter case, optionally followed by one newline |
| SnixItems.ForItem | snixItem.py:30-41 | an installer is returned exactly in the fallback branch, and it carries the value unchanged |
| SnixItems.Perform | snixItem.py:43-54 | install spawns the command once through a shell; remove and update do nothing |
| SnixItems.ItemPerform | snixItem.py:15-25 | the action is first logged with the item's name; then the installer's action follows, or the call fails on a missing installer |
| SnixItems.RawCommandRunsVerbatim | snixItem.py:30-54 | a value that is neither brew nor a URL, when installed, logs "Installing <name>" and runs the value verbatim through a shell |
| Entities.CloneRepo | context.py:57-61 | the clone context holds exactly `snix_root` and `repo_location`, and its git command is `git clone <upstreamRepo>` |
| Paths.SchemaPath | context.py:37 | for a plain root the schema is read from `<root>/_snix/schema.json` |
| Paths.DerivedDir | context.py:56 | the derived directory has no `/` and no `.`; it is the slice after the last `/` up to the first `.` after it |
| Paths.DerivedDirUnique | context.py:56 | conversely, any slice with those boundaries is the derived directory |
| Paths.IncludePath | context.py:63 | the include file is `root/dir/grp/grp.snix` in the plain case and `root/grp/grp.snix` for an empty directory; for an absolute group directory every earlier component is discarded and the path is the group directory followed by `.snix`, a file beside that directory rather than inside it |
| Manifests.SnixLayoutExample | context.py:56-63 | for the clone URL `https://github.com/acme/dotfiles.git` and group `mac` under `/opt/snix`, the clone directory is `dotfiles` and the include file is `/opt/snix/dotfiles/mac/mac.snix` |
| Manifests.ScanIncludes | context.py:54-63 | the loop leaves the include file unbound exactly for an empty list, and otherwise leaves the last entry's file; it clones at most once per entry, each time under the manifest's root |
| Manifests.ScanConcat | context.py:54-61 | the clones of two include lists in sequence are the clones of each in turn |
| Manifests.ScanSingle | context.py:57-61 | one include entry is cloned exactly when its derived directory is absent |
| Manifests.TrailingSlashAlwaysCloned | context.py:56-57 | a repository URL ending in `/` derives the empty directory, which `os.path.exists` never reports, so that include is cloned whatever exists |
| Manifests.Overlay | context.py:95 | `dict.update` keeps the keys of both, with the configuration's value on shared keys |
| Manifests.ItemsOf | context.py:92-105 | one item per declared name, in entry-then-name order, whose context is that name and its entry's `via` updated with the configuration |
| Manifests.ReposOf | context.py:107-113 | one repository per entry, in order, with its location unless the configuration overrides `repo_location` |
| Manifests.ScriptsOf | context.py:115-121 | one script per entry, in order, with its location unless the configuration overrides `script_location` |
| Context.Construct | context.py:18-49 | a non-file aborts; a root without `config` or `snix_root` raises that KeyError, a missing `<root>/_snix/schema.json` raises the file error and a failed validation raises a validation error, each with nothing collected; a valid root without `includes` yields exactly its config and own entries; success implies the root was valid, its config is kept, and its own entries end every list; an empty `includes` raises UnboundLocalError with nothing collected |
| Context.CollectIncludes | context.py:52-64 | only ever appends; an empty `includes` list raises UnboundLocalError |
| Context.CollectFromFile | context.py:66-79 | only ever appends; an invalid file adds nothing and raises; success implies the file exists and is valid; without the key `include` its `includes` are ignored and exactly its own entries are appended |
| Context.FromFileShift | context.py:66-79 | collecting a file from any accumulated state appends what collecting it from empty lists gives, and raises the same error |
| Context.IncludesShift | context.py:52-64 | the same holds for collecting a manifest's includes |
| Context.LastIncludeCollected | context.py:54-64 | a last include file that is valid and has no `include` key contributes its entries after the loop's clones |
| Context.IncludeBeforeOwn | context.py:40-49 | then the resolved lists are the included file's entries followed by the root's own, and the clones are exactly the loop's |
| Context.OnlyLastIncludeRead | context.py:54-64 | dropping every include entry but the last changes only the clone trace, by the earlier entries' clones |
| Context.GetItems | context.py:92-105 | one item per declared name; each context has `name`, `via` and the config keys, and a config `name` or `via` replaces the item's own |
| Context.GetRepos | context.py:107-113 | one repository per entry, its context the location overlaid with the root configuration |
| Context.GetCustomScripts | context.py:115-121 | one script per entry, its context the location overlaid with the root configuration |
| SnixContext.Construct | snixContext.py:18-47 | a non-file aborts; without `includes` the result is exactly the manifest's own entries; success implies its own entries end every list; an empty `includes` raises UnboundLocalError with nothing collected |
| SnixContext.CollectIncludes | snixContext.py:50-62 | only ever appends; a missing `includes` key raises KeyError; an empty list raises UnboundLocalError |
| SnixContext.CollectFromFile | snixContext.py:64-74 | only ever appends; a missing file raises IOError; without the key `include` exactly its own entries are appended |
| SnixContext.FromFileShift | snixContext.py:64-74 | collecting a file from any state appends what collecting it from empty lists gives, with the same error |
| SnixContext.IncludesShift | snixContext.py:50-62 | the same holds for collecting a manifest's includes |
| SnixContext.LastIncludeCollected | snixContext.py:52-74 | an existing last include file without an `include` key contributes its entries after the loop's clones |
| SnixContext.IncludeBeforeOwn | snixContext.py:40-47 | then the resolved lists are the included file's entries followed by the manifest's own |
| SnixContext.OnlyLastIncludeRead | snixContext.py:52-62 | dropping every include entry but the last changes only the clone trace |
| SnixContext.GetItems | snixContext.py:83-92 | one item per declared name, in order, whose context is exactly `{name, via}` |
| SnixContext.GetRepos | snixContext.py:94-99 | one repository per entry whose context is exactly `{repo_location}` |
| SnixContext.GetCustomScripts | snixContext.py:101-106 | one script per entry whose context is exactly `{script_location}` |
| Logger.Colorize | snixLogger.py:35-45 | unmapped levels leave the message unchanged; DEBUG, INFO, WARNING, ERROR and CRITICAL wrap it as ESC[37;1m, 32, 33, 31 and 31;1, followed by the reset ESC[0m |
| Logger.StyleParams | snixLogger.py:7-20 | the colour and level maps yield, for each standard level, a non-empty parameter list whose join is that level's SGR string |
| Logger.ColorizeInjective | snixLogger.py:44 | colourising at a fixed level loses nothing: different messages stay different |
| Logger.Emit | snixLogger.py:25-33 | a stream whose `isatty` attribute is missing or falsy gets the plain message, one whose `isatty` attribute is truthy the colourised one; then the terminator, `\n` by default |
| Logger.EmitCarriesMessage | snixLogger.py:28-32 | the written text ends with the terminator and is the message, plain or wrapped in colour codes |

## Left out

- Reading files and parsing JSON: the model works on already parsed manifests, so malformed JSON is not modelled.
- JSON values of the wrong type (an `items` entry without `names`, an include entry without `upstreamRepo`) and the KeyError or TypeError they raise are not modelled; the records require those fields.
- Draft 4 schema validation is an opaque predicate parameter. Only the existence of the schema file is modelled.
- Reading `~/.snix/snix.conf` with ConfigParser (snixContext.py:34-39) is not modelled; `snix.home` is a parameter. Errors from a missing file or option are left out.
- `urlparse.urlparse` is a parameter; only its scheme and network location are used.
- `shlex.split` of the command (item.py:30): only whether it raises ValueError is modelled (module `Shlex`); the spawned effect carries the unsplit command line.
- snixCore.py defines neither `execute` nor `abort`, which item.py and repo.py call. The exit status of `execute` is a parameter, and `abort` becomes an `Abort` error that ends the run.
- `Repo.clone` (repo.py:18-25) is recorded as the cloned repository; its log lines, status and failure are not modelled.
- The file system is one snapshot. Its manifests and schema files are the files as they stand after the include loop's clones: on a first run it is the clone that brings an include file in. Its `present` names are what the `os.path.exists` tests see; that part is exact unless the working directory is the install root, since the clone runs inside the root while the test uses the bare directory name.
- Python's recursion limit is a `fuel` bound that yields `RecursionLimit`. A cyclic include graph is not detected, which the code does not do either.
- `__str__`, the `Singleton` metaclass, `SnixLogger`'s logger wiring, record formatting (timestamps, level names) and `flush` are left out; the logger works on the formatted message.
- The commented-out code of item.py (lines 64-185) and the commented-out `UrlInstaller` branch of snixItem.py (line 38) are left out, since they are never executed.
- `CommandInstaller.install`'s handler for `CalledProcessError` is left out: `subprocess.call` never raises it.
- Letter case is ASCII only: the patterns are compiled without `re.U`, so `re.I` folds only ASCII letters, even on the unicode strings of a parsed manifest.
- SnixItems.ItemPerform: the log line formats the item's name into a byte string; a non-ASCII unicode name would raise UnicodeEncodeError there. The caller that builds these items, and so the type of the name, is outside the modelled core, so the name is taken to be formattable.
- The orchestration in bootstrap.py, and script.py and command.py, are outside the modelled core.

=== FILE: context.dfy ===
/**
 * context.py: resolve a root manifest and its includes into ordered lists of
 * items, repositories and scripts, validating each manifest against the
 * schema under the root configuration's `snix_root`, then build per-name
 * contexts overlaid with that configuration.
 *
 * The resolver threads its state: each step takes the lists accumulated so
 * far and returns them as they stand when it returns or raises. `fuel`
 * bounds the nesting of includes, standing for Python's recursion limit.
 */
module Context {
  import opened Wrappers
  import opened Runtime
  import opened Paths
  import opened Manifests
  import Items
  import Entities

  /** The context object after `construct_from`: its configuration, its lists, and the error that ended construction, if any. */
  datatype Resolution = Resolution(config: Config, lists: Lists, failure: Option<Error>)

  /** The root of a manifest's configuration, or the KeyError reading `_data['config']['snix_root']` raises. */
  function SnixRoot(data: Manifest): Result<string, Error>
  {
    if data.config.None? then Failure(KeyMissing("config"))
    else if "snix_root" !in data.config.value then Failure(KeyMissing("snix_root"))
    else Success(data.config.value["snix_root"])
  }

  /**
   * `Context.construct_from`: `__init__`'s file check, then `_construct`.
   * The root is validated before any of its entries or includes are read;
   * its own entries are appended after everything the includes contributed.
   * The path rules are a parameter; `ConstructFrom` fixes them to `SnixLayout`.
   */
  function Construct(fs: FileSystem, file: string, schemaValid: Manifest -> bool, layout: Layout, fuel: nat)
    : (r: Resolution)
    ensures file !in fs.manifests ==> r == Resolution(map[], NoLists, Some(NotAFile(file)))
    ensures file in fs.manifests && !schemaValid(fs.manifests[file])
        ==> r.failure.Some? && r.lists == NoLists
    ensures file in fs.manifests && SnixRoot(fs.manifests[file]).Failure?
        ==> r == Resolution(map[], NoLists, Some(SnixRoot(fs.manifests[file]).error))
    ensures file in fs.manifests && SnixRoot(fs.manifests[file]).Success?
        && SchemaPath(SnixRoot(fs.manifests[file]).value) !in fs.schemas
        ==> r == Resolution(map[], NoLists, Some(FileMissing(SchemaPath(SnixRoot(fs.manifests[file]).value))))
    ensures file in fs.manifests && SnixRoot(fs.manifests[file]).Success?
        && SchemaPath(SnixRoot(fs.manifests[file]).value) in fs.schemas && !schemaValid(fs.manifests[file])
        ==> r == Resolution(map[], NoLists, Some(SchemaViolation(file)))
    ensures file in fs.manifests && SnixRoot(fs.manifests[file]).Success?
        && SchemaPath(SnixRoot(fs.manifests[file]).value) in fs.schemas && schemaValid(fs.manifests[file])
        && fs.manifests[file].includes.None?
        ==> r == Resolution(fs.manifests[file].config.value, AppendOwn(NoLists, fs.manifests[file]), None)
    ensures r.failure.None? ==>
        && file in fs.manifests
        && schemaValid(fs.manifests[file])
        && fs.manifests[file].config == Some(r.config)
    ensures r.failure.None? ==>
        var own := fs.manifests[file];
        && IsSuffix(Entries(own.items), r.lists.items)
        && IsSuffix(Entries(own.repos), r.lists.repos)
        && IsSuffix(Entries(own.customScripts), r.lists.scripts)
    ensures file in fs.manifests && fs.manifests[file].includes == Some([])
        && SnixRoot(fs.manifests[file]).Success?
        && SchemaPath(SnixRoot(fs.manifests[file]).value) in fs.schemas && schemaValid(fs.manifests[file])
        ==> r.failure == Some(IncludeFileUnbound) && r.lists == NoLists
  {
    if file !in fs.manifests then Resolution(map[], NoLists, Some(NotAFile(file)))
    else
      var data := fs.manifests[file];
      match SnixRoot(data)
      case Failure(e) => Resolution(map[], NoLists, Some(e))
      case Success(root) =>
        if SchemaPath(root) !in fs.schemas then Resolution(map[], NoLists, Some(FileMissing(SchemaPath(root))))
        else if !schemaValid(data) then Resolution(map[], NoLists, Some(SchemaViolation(file)))
        else
          var config := data.config.value;
          var included :=
            if data.includes.Some? then CollectIncludes(fs, root, data, schemaValid, layout, NoLists, fuel)
            else Outcome(NoLists, None);
          var resolved := Finish(included, data);
          Resolution(config, resolved.lists, resolved.failure)
  }

  /** `Context.construct_from` with the program's own path rules. */
  function ConstructFrom(fs: FileSystem, file: string, schemaValid: Manifest -> bool, fuel: nat): Resolution
  {
    Construct(fs, file, schemaValid, SnixLayout, fuel)
  }

  /**
   * `_collect_includes`: run the include loop under the manifest's own
   * `snix_root`, then collect only the file computed by the last iteration;
   * an empty list leaves that file unbound. `schemaRoot` is the root
   * configuration's `snix_root`, where the schema is always read from.
   */
  function CollectIncludes(fs: FileSystem, schemaRoot: string, data: Manifest, schemaValid: Manifest -> bool,
                           layout: Layout, acc: Lists, fuel: nat): (o: Outcome)
    ensures Extends(acc, o.lists)
    ensures data.includes == Some([]) && SnixRoot(data).Success?
        ==> o.failure == Some(IncludeFileUnbound)
    decreases fuel, 1
  {
    match SnixRoot(data)
    case Failure(e) => Outcome(acc, Some(e))
    case Success(root) =>
      if data.includes.None? then Outcome(acc, Some(KeyMissing("includes")))
      else
        var scan := ScanIncludes(root, data.includes.value, fs.present, layout);
        var cloned := acc.(cloned := acc.cloned + scan.cloned);
        match scan.includeFile
        case None => Outcome(cloned, Some(IncludeFileUnbound))
        case Some(includeFile) => CollectFromFile(fs, schemaRoot, includeFile, schemaValid, layout, cloned, fuel)
  }

  /**
   * `_collect_from_file`: read and validate an included manifest, follow
   * its includes only when it has the key `include` (singular), then append
   * its own entries. A file that fails validation contributes nothing.
   */
  function CollectFromFile(fs: FileSystem, schemaRoot: string, file: string, schemaValid: Manifest -> bool,
                           layout: Layout, acc: Lists, fuel: nat): (o: Outcome)
    ensures Extends(acc, o.lists)
    ensures file in fs.manifests && SchemaPath(schemaRoot) in fs.schemas && !schemaValid(fs.manifests[file])
        ==> o == Outcome(acc, Some(SchemaViolation(file)))
    ensures o.failure.None? ==> file in fs.manifests && schemaValid(fs.manifests[file])
    ensures file in fs.manifests && SchemaPath(schemaRoot) in fs.schemas && schemaValid(fs.manifests[file])
        && !fs.manifests[file].hasIncludeKey
        ==> o == Outcome(AppendOwn(acc, fs.manifests[file]), None)
    decreases fuel, 0
  {
    if file !in fs.manifests then Outcome(acc, Some(FileMissing(file)))
    else
      var data := fs.manifests[file];
      if SchemaPath(schemaRoot) !in fs.schemas then Outcome(acc, Some(FileMissing(SchemaPath(schemaRoot))))
      else if !schemaValid(data) then Outcome(acc, Some(SchemaViolation(file)))
      else
        var nested :=
          if !data.hasIncludeKey then Outcome(acc, None)
          else if fuel == 0 then Outcome(acc, Some(RecursionLimit))
          else CollectIncludes(fs, schemaRoot, data, schemaValid, layout, acc, fuel - 1);
        Finish(nested, data)
  }

  /** A valid included manifest with the `include` key: collect its includes, then append its own entries. */
  predicate FollowsNested(fs: FileSystem, schemaRoot: string, file: string, schemaValid: Manifest -> bool, fuel: nat)
  {
    file in fs.manifests && SchemaPath(schemaRoot) in fs.schemas && schemaValid(fs.manifests[file])
    && fs.manifests[file].hasIncludeKey && fuel > 0
  }

  /**
   * What a collection step appends does not depend on what was accumulated
   * before it: starting from `acc` gives `acc` followed by what starting
   * from empty lists gives, and the same error.
   */
  lemma {:induction false} FromFileShift(fs: FileSystem, schemaRoot: string, file: string,
                                         schemaValid: Manifest -> bool, layout: Layout, acc: Lists, fuel: nat)
    ensures CollectFromFile(fs, schemaRoot, file, schemaValid, layout, acc, fuel)
         == Shift(acc, CollectFromFile(fs, schemaRoot, file, schemaValid, layout, NoLists, fuel))
    decreases fuel, 0, 1
  {
    if FollowsNested(fs, schemaRoot, file, schemaValid, fuel) {
      NestedShift(fs, schemaRoot, file, schemaValid, layout, acc, fuel);
    } else {
      FlatShift(fs, schemaRoot, file, schemaValid, layout, acc, fuel);
    }
  }

  /** FromFileShift when no nested include is followed. */
  lemma FlatShift(fs: FileSystem, schemaRoot: string, file: string,
                  schemaValid: Manifest -> bool, layout: Layout, acc: Lists, fuel: nat)
    requires !FollowsNested(fs, schemaRoot, file, schemaValid, fuel)
    ensures CollectFromFile(fs, schemaRoot, file, schemaValid, layout, acc, fuel)
         == Shift(acc, CollectFromFile(fs, schemaRoot, file, schemaValid, layout, NoLists, fuel))
  {
    assert Concat(acc, NoLists) == acc;
    if file in fs.manifests && SchemaPath(schemaRoot) in fs.schemas && schemaValid(fs.manifests[file])
       && !fs.manifests[file].hasIncludeKey {
      AppendOwnConcat(acc, NoLists, fs.manifests[file]);
    }
  }

  /** One unfolding of CollectFromFile on a file whose includes are followed. */
  lemma NestedUnfold(fs: FileSystem, schemaRoot: string, file: string,
                     schemaValid: Manifest -> bool, layout: Layout, acc: Lists, fuel: nat)
    requires FollowsNested(fs, schemaRoot, file, schemaValid, fuel)
    ensures CollectFromFile(fs, schemaRoot, file, schemaValid, layout, acc, fuel)
         == Finish(CollectIncludes(fs, schemaRoot, fs.manifests[file], schemaValid, layout, acc, fuel - 1),
                   fs.manifests[file])
  {
  }

  /** FromFileShift when a nested include is followed. */
  lemma {:induction false} NestedShift(fs: FileSystem, schemaRoot: string, file: string,
                                       schemaValid: Manifest -> bool, layout: Layout, acc: Lists, fuel: nat)
    requires FollowsNested(fs, schemaRoot, file, schemaValid, fuel)
    ensures CollectFromFile(fs, schemaRoot, file, schemaValid, layout, acc, fuel)
         == Shift(acc, CollectFromFile(fs, schemaRoot, file, schemaValid, layout, NoLists, fuel))
    decreases fuel, 0, 0
  {
    var data := fs.manifests[file];
    NestedUnfold(fs, schemaRoot, file, schemaValid, layout, acc, fuel);
    NestedUnfold(fs, schemaRoot, file, schemaValid, layout, NoLists, fuel);
    IncludesShift(fs, schemaRoot, data, schemaValid, layout, acc, fuel - 1);
    ShiftThroughFinish(acc, CollectIncludes(fs, schemaRoot, data, schemaValid, layout, acc, fuel - 1),
                       CollectIncludes(fs, schemaRoot, data, schemaValid, layout, NoLists, fuel - 1),
                       CollectFromFile(fs, schemaRoot, file, schemaValid, layout, acc, fuel),
                       CollectFromFile(fs, schemaRoot, file, schemaValid, layout, NoLists, fuel), data);
  }

  lemma {:induction false} IncludesShift(fs: FileSystem, schemaRoot: string, data: Manifest,
                                         schemaValid: Manifest -> bool, layout: Layout, acc: Lists, fuel: nat)
    ensures CollectIncludes(fs, schemaRoot, data, schemaValid, layout, acc, fuel)
         == Shift(acc, CollectIncludes(fs, schemaRoot, data, schemaValid, layout, NoLists, fuel))
    decreases fuel, 1, 0
  {
    assert Concat(acc, NoLists) == acc;
    if SnixRoot(data).Success? && data.includes.Some? {
      var scan := ScanIncludes(SnixRoot(data).value, data.includes.value, fs.present, layout);
      var withClones := acc.(cloned := acc.cloned + scan.cloned);
      var fromEmpty := NoLists.(cloned := NoLists.cloned + scan.cloned);
      assert withClones == Concat(acc, fromEmpty);
      if scan.includeFile.Some? {
        var file := scan.includeFile.value;
        FromFileShift(fs, schemaRoot, file, schemaValid, layout, withClones, fuel);
        FromFileShift(fs, schemaRoot, file, schemaValid, layout, fromEmpty, fuel);
        ShiftCompose(acc, fromEmpty,
                     CollectFromFile(fs, schemaRoot, file, schemaValid, layout, withClones, fuel),
                     CollectFromFile(fs, schemaRoot, file, schemaValid, layout, fromEmpty, fuel),
                     CollectFromFile(fs, schemaRoot, file, schemaValid, layout, NoLists, fuel));
      }
    }
  }

  /**
   * Includes with a last file that is valid and has no nested `include`
   * key contribute that file's entries and the include loop's clones, and
   * raise nothing.
   */
  lemma {:induction false} LastIncludeCollected(fs: FileSystem, schemaRoot: string, data: Manifest,
                                                schemaValid: Manifest -> bool, layout: Layout, fuel: nat)
    requires SnixRoot(data).Success? && SchemaPath(schemaRoot) in fs.schemas
    requires data.includes.Some? && |data.includes.value| > 0
    requires var includes := data.includes.value;
      var last := layout.includeFile(SnixRoot(data).value, includes[|includes| - 1]);
      last in fs.manifests && schemaValid(fs.manifests[last]) && !fs.manifests[last].hasIncludeKey
    ensures var includes := data.includes.value;
      var included := fs.manifests[layout.includeFile(SnixRoot(data).value, includes[|includes| - 1])];
      CollectIncludes(fs, schemaRoot, data, schemaValid, layout, NoLists, fuel)
        == Outcome(Lists(Entries(included.items), Entries(included.repos), Entries(included.customScripts),
                         ScanIncludes(SnixRoot(data).value, includes, fs.present, layout).cloned),
                   None)
  {
    var scan := ScanIncludes(SnixRoot(data).value, data.includes.value, fs.present, layout);
    assert NoLists.cloned + scan.cloned == scan.cloned;
  }

  /**
   * Merge order for a root with includes whose last include file has no
   * nested `include` key: the lists are that file's entries followed by the
   * root's own, and the clone trace is exactly the include loop's.
   */
  lemma {:induction false} IncludeBeforeOwn(fs: FileSystem, file: string, schemaValid: Manifest -> bool,
                                            layout: Layout, fuel: nat)
    requires file in fs.manifests
    requires SnixRoot(fs.manifests[file]).Success?
    requires SchemaPath(SnixRoot(fs.manifests[file]).value) in fs.schemas
    requires schemaValid(fs.manifests[file])
    requires fs.manifests[file].includes.Some? && |fs.manifests[file].includes.value| > 0
    requires var root := fs.manifests[file];
      var includes := root.includes.value;
      var last := layout.includeFile(SnixRoot(root).value, includes[|includes| - 1]);
      last in fs.manifests && schemaValid(fs.manifests[last]) && !fs.manifests[last].hasIncludeKey
    ensures var root := fs.manifests[file];
      var includes := root.includes.value;
      var included := fs.manifests[layout.includeFile(SnixRoot(root).value, includes[|includes| - 1])];
      Construct(fs, file, schemaValid, layout, fuel)
        == Resolution(root.config.value,
                      Lists(Entries(included.items) + Entries(root.items),
                            Entries(included.repos) + Entries(root.repos),
                            Entries(included.customScripts) + Entries(root.customScripts),
                            ScanIncludes(SnixRoot(root).value, includes, fs.present, layout).cloned),
                      None)
  {
    var root := fs.manifests[file];
    LastIncludeCollected(fs, SnixRoot(root).value, root, schemaValid, layout, fuel);
  }

  /** One unfolding of CollectIncludes on a non-empty include list: the clones, then the last entry's file. */
  lemma IncludesUnfold(fs: FileSystem, schemaRoot: string, data: Manifest,
                       schemaValid: Manifest -> bool, layout: Layout, acc: Lists, fuel: nat)
    requires SnixRoot(data).Success? && data.includes.Some? && |data.includes.value| > 0
    ensures var root := SnixRoot(data).value;
      var includes := data.includes.value;
      var scan := ScanIncludes(root, includes, fs.present, layout);
      CollectIncludes(fs, schemaRoot, data, schemaValid, layout, acc, fuel)
        == CollectFromFile(fs, schemaRoot, layout.includeFile(root, includes[|includes| - 1]), schemaValid, layout,
                           acc.(cloned := acc.cloned + scan.cloned), fuel)
  {
  }

  /**
   * Only the last include entry's file is read: dropping every earlier
   * entry changes the clone trace and nothing else.
   */
  lemma {:induction false} OnlyLastIncludeRead(fs: FileSystem, schemaRoot: string, data: Manifest,
                                               schemaValid: Manifest -> bool, layout: Layout,
                                               earlier: seq<Include>, last: Include, acc: Lists, fuel: nat)
    requires data.includes == Some(earlier + [last])
    requires SnixRoot(data).Success?
    ensures var full := CollectIncludes(fs, schemaRoot, data, schemaValid, layout, acc, fuel);
      var lastOnly := CollectIncludes(fs, schemaRoot, data.(includes := Some([last])), schemaValid, layout, acc, fuel);
      && full.failure == lastOnly.failure
      && full.lists.items == lastOnly.lists.items
      && full.lists.repos == lastOnly.lists.repos
      && full.lists.scripts == lastOnly.lists.scripts
      && full.lists.cloned
         == acc.cloned + ScanIncludes(SnixRoot(data).value, earlier, fs.present, layout).cloned
            + lastOnly.lists.cloned[|acc.cloned|..]
  {
    var root := SnixRoot(data).value;
    var lastData := data.(includes := Some([last]));
    assert SnixRoot(lastData) == SnixRoot(data);
    assert (earlier + [last])[|earlier + [last]| - 1] == last;
    var pre := ScanIncludes(root, earlier, fs.present, layout).cloned;
    var mid := ScanIncludes(root, [last], fs.present, layout).cloned;
    ScanConcat(root, earlier, [last], fs.present, layout);
    var file := layout.includeFile(root, last);
    IncludesUnfold(fs, schemaRoot, data, schemaValid, layout, acc, fuel);
    IncludesUnfold(fs, schemaRoot, lastData, schemaValid, layout, acc, fuel);
    var accFull := acc.(cloned := acc.cloned + (pre + mid));
    var accLast := acc.(cloned := acc.cloned + mid);
    FromFileShift(fs, schemaRoot, file, schemaValid, layout, accFull, fuel);
    FromFileShift(fs, schemaRoot, file, schemaValid, layout, accLast, fuel);
    SameStepOtherClones(acc, pre, mid, CollectFromFile(fs, schemaRoot, file, schemaValid, layout, NoLists, fuel),
                        CollectFromFile(fs, schemaRoot, file, schemaValid, layout, accFull, fuel),
                        CollectFromFile(fs, schemaRoot, file, schemaValid, layout, accLast, fuel));
  }

  /**
   * `get_items`: one item per declared name, in entry-then-name order, each
   * holding `{name, via}` updated with the root configuration, so a `name`
   * or `via` key in the configuration replaces every item's own.
   */
  function GetItems(r: Resolution): (items: seq<Items.Item>)
    ensures |items| == |AllNames(r.lists.items)|
    ensures forall k :: 0 <= k < |items| ==> items[k].context.Keys == {"name", "via"} + r.config.Keys
    ensures forall k :: 0 <= k < |items| ==>
      items[k].context["name"]
        == (if "name" in r.config then r.config["name"] else AllNames(r.lists.items)[k])
    ensures forall k :: 0 <= k < |items| ==>
      items[k].context["via"]
        == (if "via" in r.config then r.config["via"] else AllVias(r.lists.items)[k])
    ensures forall k, key :: 0 <= k < |items| && key in r.config ==> items[k].context[key] == r.config[key]
  {
    ItemsOf(r.lists.items, r.config)
  }

  /** `get_repos`: one repository per entry, in order, overlaid with the root configuration. */
  function GetRepos(r: Resolution): (repos: seq<Entities.Repo>)
    ensures |repos| == |r.lists.repos|
    ensures forall k :: 0 <= k < |repos| ==> repos[k].context.Keys == {"repo_location"} + r.config.Keys
    ensures forall k :: 0 <= k < |repos| ==>
      repos[k].context["repo_location"]
        == (if "repo_location" in r.config then r.config["repo_location"] else r.lists.repos[k])
    ensures forall k, key :: 0 <= k < |repos| && key in r.config ==> repos[k].context[key] == r.config[key]
  {
    ReposOf(r.lists.repos, r.config)
  }

  /** `get_custom_scripts`: one script per entry, in order, overlaid with the root configuration. */
  function GetCustomScripts(r: Resolution): (scripts: seq<Entities.Script>)
    ensures |scripts| == |r.lists.scripts|
    ensures forall k :: 0 <= k < |scripts| ==> scripts[k].context.Keys == {"script_location"} + r.config.Keys
    ensures forall k :: 0 <= k < |scripts| ==>
      scripts[k].context["script_location"]
        == (if "script_location" in r.config then r.config["script_location"] else r.lists.scripts[k])
    ensures forall k, key :: 0 <= k < |scripts| && key in r.config ==> scripts[k].context[key] == r.config[key]
  {
    ScriptsOf(r.lists.scripts, r.config)
  }
}

=== FILE: entities.dfy ===
/** repo.py and script.py: entities that own a context dict; only the clone command is modelled. */
module Entities {
  import opened Wrappers
  import opened Runtime

  /** A repository to clone, described by its context dict (`snix_root`, `repo_location`, …). */
  datatype Repo = Repo(context: map<string, string>)

  /** A custom script to run, described by its context dict (`snix_root`, `script_location`, …). */
  datatype Script = Script(context: map<string, string>)

  /** `Repo._build_cmd`: the git command line for a repository. */
  function CloneCommand(repo: Repo): Result<string, Error>
  {
    if "repo_location" in repo.context then Success("git clone " + repo.context["repo_location"])
    else Failure(KeyMissing("repo_location"))
  }

  /** The repository the include resolver clones: its context names the install root and the upstream location. */
  function CloneRepo(root: string, location: string): (r: Repo)
    ensures r.context.Keys == {"snix_root", "repo_location"} && r.context["snix_root"] == root
    ensures CloneCommand(r) == Success("git clone " + location)
  {
    Repo(map["snix_root" := root, "repo_location" := location])
  }
}

=== FILE: items.dfy ===
/**
 * item.py: an installable item built from a context dict, and the command
 * builder that turns its `via` descriptor into a Homebrew command line.
 */
module Items {
  import opened Wrappers
  import opened Strings
  import opened Runtime
  import opened Regex
  import Shlex

  /** An item owns the context dict it was constructed with (name, via and any root configuration). */
  datatype Item = Item(context: map<string, string>)

  /** The argument handed to `Item(...)`: a dict, or a value of any other Python type. */
  datatype ContextArg = Dict(entries: map<string, string>) | NotDict

  const ConfigRequired := "Cannot install an item without the configuration."

  /** `Item.__init__`: anything but a dict aborts. */
  function NewItem(arg: ContextArg): (r: Result<Item, Error>)
    ensures r.Success? <==> arg.Dict?
    ensures r.Success? ==> r.value.context == arg.entries
    ensures r.Failure? ==> r.error == Abort(ConfigRequired)
  {
    match arg
    case Dict(entries) => Success(Item(entries))
    case NotDict => Failure(Abort(ConfigRequired))
  }

  /** A command line and whether it is handed to a shell. */
  datatype InstallCommand = InstallCommand(command: string, useShell: bool)

  /** `^[bB]rew$`, the inner test; it is compiled without `re.I`. */
  const PlainBrewPattern: Pattern := [Class("bB"), Class("r"), Class("e"), Class("w")]

  const CaskGroup: seq<string> := ["-", "cC", "a", "s", "k"]

  /** `^[bB]rew(-[cC]ask)?$`, the outer test; it is compiled with `re.I`. */
  const BrewPattern: Pattern := PlainBrewPattern + [Optional(CaskGroup)]

  /** "brew" or "brew-cask" in any letter case: what the outer pattern spells out under `re.I`. */
  predicate IsBrewWord(w: string)
  {
    Fold(w) == "brew" || Fold(w) == "brew-cask"
  }

  /** The `via` values the outer test accepts, stated without the regex: a brew word, possibly followed by one newline. */
  predicate IsBrewVia(via: string)
  {
    IsBrewWord(via) || (|via| > 0 && via[|via| - 1] == '\n' && IsBrewWord(via[..|via| - 1]))
  }

  /** The `via` values the inner test accepts: "brew" or "Brew", possibly followed by one newline. */
  predicate IsPlainBrew(via: string)
  {
    via == "brew" || via == "Brew"
    || (|via| > 0 && via[|via| - 1] == '\n' && (via[..|via| - 1] == "brew" || via[..|via| - 1] == "Brew"))
  }

  const BrewInstall := "brew install "
  const CaskInstall := "brew cask install "

  /**
   * `CommandBuilder.build_install_cmd`. A `via` the outer pattern rejects
   * yields no command (the Python function falls off its end and returns
   * None). Because the inner test lacks `re.I`, only "brew" and "Brew"
   * (each possibly followed by a newline, which `$` lets through) get the
   * plain install; every other accepted spelling, "BREW" included, gets the
   * cask install. The name, a unicode string from the parsed manifest, is
   * formatted into a byte-string template, so a non-ASCII name raises
   * UnicodeEncodeError instead.
   */
  function BuildInstallCmd(context: map<string, string>): (r: Result<Option<InstallCommand>, Error>)
    ensures "via" !in context ==> r == Failure(KeyMissing("via"))
    ensures "via" in context ==> (r == Success(None) <==> !IsBrewVia(context["via"]))
    ensures "via" in context && IsBrewVia(context["via"]) && "name" !in context
        ==> r == Failure(KeyMissing("name"))
    ensures "via" in context && IsBrewVia(context["via"]) && "name" in context && !IsAscii(context["name"])
        ==> r == Failure(EncodeError)
    ensures "via" in context && "name" in context && IsAscii(context["name"]) && IsPlainBrew(context["via"])
        ==> r == Success(Some(InstallCommand(BrewInstall + context["name"], false)))
    ensures "via" in context && "name" in context && IsAscii(context["name"])
        && IsBrewVia(context["via"]) && !IsPlainBrew(context["via"])
        ==> r == Success(Some(InstallCommand(CaskInstall + context["name"], false)))
    ensures r.Success? && r.value.Some?
        ==> !r.value.value.useShell && "name" in context && IsAscii(context["name"])
            && EndsWith(r.value.value.command, context["name"])
  {
    if "via" !in context then Failure(KeyMissing("via"))
    else
      var via := context["via"];
      BrewViaMeaning(via);
      PlainIsBrew(via);
      if ReMatch(BrewPattern, via, true) then
        if "name" !in context then Failure(KeyMissing("name"))
        else if !IsAscii(context["name"]) then Failure(EncodeError)
        else if ReMatch(PlainBrewPattern, via, false) then
          Success(Some(InstallCommand(BrewInstall + context["name"], false)))
        else
          Success(Some(InstallCommand(CaskInstall + context["name"], false)))
      else Success(None)
  }

  /**
   * `Item.install`: log, spawn the built command through the execution
   * collaborator (whose exit status is `exitCode`), log the status. A `via`
   * with no command makes the tuple unpacking fail before anything runs, and
   * so does a non-ASCII name, which the first `format` cannot encode. A
   * command line `shlex.split` cannot split (the name leaves a quotation
   * open or ends in a backslash) raises after the first log line.
   */
  function Install(item: Item, exitCode: int): (t: Trace)
    ensures t.failure.None? <==>
        && "name" in item.context && IsAscii(item.context["name"]) && Shlex.Splits(item.context["name"])
        && "via" in item.context && IsBrewVia(item.context["via"])
    ensures "name" in item.context && !IsAscii(item.context["name"]) ==> t == Trace([], Some(EncodeError))
    ensures t.failure.None? ==> RunCount(t.effects) == 1
    ensures t.failure.None? ==>
        |t.effects| == 3 && t.effects[1].Run? && !t.effects[1].shell
        && EndsWith(t.effects[1].command, item.context["name"])
    ensures t.failure.None? ==>
        var name := item.context["name"];
        var command := (if IsPlainBrew(item.context["via"]) then BrewInstall else CaskInstall) + name;
        var msg := "Installing " + name + "...";
        t.effects == [Log(msg + command), Run(command, false), Log(msg + "Done!. StatusCode:" + IntToString(exitCode))]
    ensures ("name" in item.context && IsAscii(item.context["name"]) && !Shlex.Splits(item.context["name"])
             && "via" in item.context && IsBrewVia(item.context["via"])) ==>
        var name := item.context["name"];
        var command := (if IsPlainBrew(item.context["via"]) then BrewInstall else CaskInstall) + name;
        t == Trace([Log("Installing " + name + "..." + command)], Some(SplitError))
    ensures t.failure.Some? && t.failure != Some(SplitError) ==> t.effects == []
    ensures "name" in item.context && IsAscii(item.context["name"])
        && "via" in item.context && !IsBrewVia(item.context["via"])
        ==> t.failure == Some(NotIterable)
  {
    var context := item.context;
    if "name" !in context then Trace([], Some(KeyMissing("name")))
    else if !IsAscii(context["name"]) then Trace([], Some(EncodeError))
    else
      var msg := "Installing " + context["name"] + "...";
      PrefixesSplit(context["name"]);
      match BuildInstallCmd(context)
      case Failure(e) => Trace([], Some(e))
      case Success(None) => Trace([], Some(NotIterable))
      case Success(Some(cmd)) =>
        if !Shlex.Splits(cmd.command) then Trace([Log(msg + cmd.command)], Some(SplitError))
        else
          var effects := [Log(msg + cmd.command), Run(cmd.command, cmd.useShell),
                          Log(msg + "Done!. StatusCode:" + IntToString(exitCode))];
          assert RunCount(effects) == 1 by {
            assert RunCount(effects[2..]) == 0 by { assert effects[2..][1..] == []; }
            assert effects[1..][1..] == effects[2..];
          }
          Trace(effects, None)
  }

  /** Both install prefixes are plain words, so a command line splits exactly when the name does. */
  lemma PrefixesSplit(name: string)
    ensures Shlex.Splits(BrewInstall + name) <==> Shlex.Splits(name)
    ensures Shlex.Splits(CaskInstall + name) <==> Shlex.Splits(name)
  {
    Shlex.PlainPrefix(BrewInstall, name);
    Shlex.PlainPrefix(CaskInstall, name);
  }

  /** The four-character prefix, compared under `re.I`, is "brew" in some letter case. */
  lemma PlainBrewIgnoringCase(t: string)
    requires |t| == 4
    ensures ClassesAccept(PlainBrewPattern, t, true) <==> Fold(t) == "brew"
  {
    forall i | 0 <= i < 4 ensures InClass(PlainBrewPattern[i].chars, t[i], true) <==> Lower(t[i]) == "brew"[i] {
      InClassIgnoreCase(PlainBrewPattern[i].chars, t[i]);
    }
    assert Fold(t) == "brew" <==> forall i :: 0 <= i < 4 ==> Fold(t)[i] == "brew"[i];
  }

  /** The five-character tail, compared under `re.I`, is "-cask" in some letter case. */
  lemma CaskIgnoringCase(t: string)
    requires |t| == 5
    ensures GroupMatches(CaskGroup, t, true) <==> Fold(t) == "-cask"
  {
    forall i | 0 <= i < 5 ensures InClass(CaskGroup[i], t[i], true) <==> Lower(t[i]) == "-cask"[i] {
      InClassIgnoreCase(CaskGroup[i], t[i]);
    }
    assert Fold(t) == "-cask" <==> forall i :: 0 <= i < 5 ==> Fold(t)[i] == "-cask"[i];
  }

  /** The outer pattern under `re.I` accepts exactly "brew" and "brew-cask" in any letter case. */
  lemma BrewPatternMeaning(via: string)
    ensures Matches(BrewPattern, via, true) <==> IsBrewWord(via)
  {
    ClassesThen(PlainBrewPattern, [Optional(CaskGroup)], via, true);
    if |via| >= 4 {
      OptionalTail(CaskGroup, via[4..], true);
      PlainBrewIgnoringCase(via[..4]);
      assert Fold(via)[..4] == Fold(via[..4]);
      if |via| == 9 {
        CaskIgnoringCase(via[4..]);
        assert Fold(via)[4..] == Fold(via[4..]);
        assert Fold(via) == Fold(via[..4]) + Fold(via[4..]);
        assert GroupMatches(CaskGroup, via[4..], true) <==> GroupMatches(CaskGroup, via[4..][..5], true);
      }
      if |via| == 4 {
        assert via[..4] == via;
      }
    }
  }

  /** The inner pattern without `re.I` accepts exactly "brew" and "Brew". */
  lemma PlainBrewMeaning(via: string)
    ensures Matches(PlainBrewPattern, via, false) <==> via == "brew" || via == "Brew"
  {
    ClassesThen(PlainBrewPattern, [], via, false);
    assert PlainBrewPattern + [] == PlainBrewPattern;
    if |via| == 4 {
      assert via[..4] == via;
      assert InClass("bB", via[0], false) <==> via[0] == 'b' || via[0] == 'B';
      assert InClass("r", via[1], false) <==> via[1] == 'r';
      assert InClass("e", via[2], false) <==> via[2] == 'e';
      assert InClass("w", via[3], false) <==> via[3] == 'w';
      assert via == "brew" <==> via[0] == 'b' && via[1..] == "rew";
      assert via == "Brew" <==> via[0] == 'B' && via[1..] == "rew";
    }
  }

  /** Both tests as `re.match` applies them, trailing newline included, stated without the regex. */
  lemma BrewViaMeaning(via: string)
    ensures ReMatch(BrewPattern, via, true) <==> IsBrewVia(via)
    ensures ReMatch(PlainBrewPattern, via, false) <==> IsPlainBrew(via)
  {
    BrewPatternMeaning(via);
    PlainBrewMeaning(via);
    if |via| > 0 {
      BrewPatternMeaning(via[..|via| - 1]);
      PlainBrewMeaning(via[..|via| - 1]);
    }
  }

  /** Every spelling the inner test accepts is one the outer test accepts too. */
  lemma PlainIsBrew(via: string)
    ensures IsPlainBrew(via) ==> IsBrewVia(via)
  {
    assert Fold("brew") == "brew" && Fold("Brew") == "brew";
  }

  /** `$` matches before a final newline, so "brew" followed by a newline still gets the plain install. */
  lemma {:induction false} TrailingNewlineBrew(name: string)
    ensures IsAscii(name) ==>
        BuildInstallCmd(map["via" := "brew\n", "name" := name]) == Success(Some(InstallCommand("brew install " + name, false)))
  {
    assert "brew\n"[..4] == "brew";
  }

  /** The all-capitals spelling passes the outer test but not the inner one, so it is installed as a cask. */
  lemma {:induction false} AllCapsBrewInstallsCask(name: string)
    ensures IsAscii(name) ==>
        BuildInstallCmd(map["via" := "BREW", "name" := name]) == Success(Some(InstallCommand("brew cask install " + name, false)))
  {
    assert Fold("BREW") == "brew";
    assert "BREW"[3] != '\n';
  }
}

=== FILE: logger.dfy ===
/**
 * snixLogger.py: the colourising stream handler. A record's level selects a
 * foreground colour and a bold flag; the formatted message is wrapped in
 * an ANSI select-graphic-rendition sequence and a reset, but only when the
 * stream looks like a terminal.
 */
module Logger {
  import opened Wrappers
  import opened Strings

  /** The numeric levels of Python's `logging` module. */
  const Debug := 10
  const Info := 20
  const Warning := 30
  const Error := 40
  const Critical := 50

  /** A level's rendering: a colour name and whether it is bold. */
  datatype Style = Style(foreground: string, bold: bool)

  /** `color_map`: colour names to ANSI colour numbers. */
  const ColorMap: map<string, nat> := map["red" := 1, "green" := 2, "yellow" := 3, "white" := 7]

  /** `level_map`: the five standard levels to their styles. */
  const LevelMap: map<int, Style> := map[
    Debug := Style("white", true),
    Info := Style("green", false),
    Warning := Style("yellow", false),
    Error := Style("red", false),
    Critical := Style("red", true)]

  const Csi := "\U{1B}["
  const Reset := "\U{1B}[0m"

  /** The SGR parameters of a style: the foreground (colour number plus 30) if the colour is known, then `1` if bold. */
  function Params(style: Style): seq<string>
  {
    (if style.foreground in ColorMap then [NatToString(ColorMap[style.foreground] + 30)] else [])
    + (if style.bold then ["1"] else [])
  }

  /**
   * The parameter string each level is rendered with, written out as a
   * table independently of the two maps.
   */
  function ExpectedSgr(level: int): string
    requires level in {Debug, Info, Warning, Error, Critical}
  {
    if level == Debug then "37;1"
    else if level == Info then "32"
    else if level == Warning then "33"
    else if level == Error then "31"
    else "31;1"
  }

  /**
   * `colorize`: a level outside the map leaves the message unchanged; each
   * standard level wraps it as CSI, its parameters, `m`, the message and
   * the reset sequence.
   */
  function Colorize(message: string, level: int): (r: string)
    ensures level !in {Debug, Info, Warning, Error, Critical} ==> r == message
    ensures level in {Debug, Info, Warning, Error, Critical}
        ==> r == Csi + ExpectedSgr(level) + "m" + message + Reset
  {
    if level !in LevelMap then message
    else
      var params := Params(LevelMap[level]);
      if |params| == 0 then message
      else
        StyleParams(level);
        Csi + JoinWith(";", params) + "m" + message + Reset
  }

  /** The parameters `Params` computes for each standard level, joined, are the table's. */
  lemma StyleParams(level: int)
    requires level in LevelMap
    ensures |Params(LevelMap[level])| > 0
    ensures JoinWith(";", Params(LevelMap[level])) == ExpectedSgr(level)
  {
    assert NatToString(31) == "31" by { assert NatToString(3) == "3"; }
    assert NatToString(32) == "32" by { assert NatToString(3) == "3"; }
    assert NatToString(33) == "33" by { assert NatToString(3) == "3"; }
    assert NatToString(37) == "37" by { assert NatToString(3) == "3"; }
  }

  /**
   * Colourising loses nothing: for a fixed level, different messages stay
   * different, and the message is recovered by dropping the prefix and the
   * reset.
   */
  lemma {:induction false} ColorizeInjective(m1: string, m2: string, level: int)
    requires Colorize(m1, level) == Colorize(m2, level)
    ensures m1 == m2
  {
    if level in {Debug, Info, Warning, Error, Critical} {
      var prefix := Csi + ExpectedSgr(level) + "m";
      var c1 := Colorize(m1, level);
      var c2 := Colorize(m2, level);
      assert c1 == prefix + m1 + Reset;
      assert c2 == prefix + m2 + Reset;
      assert m1 == c1[|prefix|..|c1| - |Reset|];
      assert m2 == c2[|prefix|..|c2| - |Reset|];
    }
  }

  /**
   * The output stream. `hasIsatty` is the truth value of
   * `getattr(stream, 'isatty', None)`: true when the stream has an `isatty`
   * attribute whose value is truthy (any bound method is), false when the
   * attribute is missing, `None` or otherwise falsy.
   */
  datatype Stream = Stream(hasIsatty: bool)

  /** The handler; `terminator` is its `terminator` attribute, if it has one. */
  datatype Handler = Handler(terminator: Option<string>)

  /** `getattr(self, 'terminator', '\n')`. */
  function Terminator(handler: Handler): string
  {
    if handler.terminator.Some? then handler.terminator.value else "\n"
  }

  /**
   * `emit`: the strings written to the stream, in order. The attribute is
   * tested, not called, so any stream whose `isatty` attribute is truthy
   * gets the colourised message, whether or not it is a terminal.
   */
  function Emit(handler: Handler, stream: Stream, message: string, level: int): (writes: seq<string>)
    ensures |writes| == 2
    ensures !stream.hasIsatty ==> writes[0] == message
    ensures stream.hasIsatty ==> writes[0] == Colorize(message, level)
    ensures handler.terminator.None? ==> writes[1] == "\n"
    ensures handler.terminator.Some? ==> writes[1] == handler.terminator.value
  {
    var body := if !stream.hasIsatty then message else Colorize(message, level);
    [body, Terminator(handler)]
  }

  /**
   * What `emit` puts on the stream, joined: the message, unchanged or
   * wrapped in colour codes, then the terminator. Stripping the wrapping
   * gives back the message either way.
   */
  lemma {:induction false} EmitCarriesMessage(handler: Handler, stream: Stream, message: string, level: int)
    ensures var writes := Emit(handler, stream, message, level);
      var out := writes[0] + writes[1];
      && EndsWith(out, Terminator(handler))
      && (if stream.hasIsatty && level in {Debug, Info, Warning, Error, Critical}
          then out == Csi + ExpectedSgr(level) + "m" + message + Reset + Terminator(handler)
          else out == message + Terminator(handler))
  {
    var writes := Emit(handler, stream, message, level);
    var out := writes[0] + writes[1];
    assert out[|out| - |writes[1]|..] == writes[1];
  }
}

=== FILE: manifests.dfy ===
/**
 * The manifest records both context resolvers read, the lists they
 * accumulate, the include loop they share, and the accessors that turn the
 * accumulated lists into items, repositories and scripts.
 */
module Manifests {
  import opened Wrappers
  import opened Runtime
  import opened Paths
  import Items
  import Entities
  import Strings

  type Config = map<string, string>

  /** One `items` entry: several names installed through one `via` descriptor. */
  datatype ItemDecl = ItemDecl(names: seq<string>, via: string)

  /** One `includes` entry: an upstream repository and the group directory inside it. */
  datatype Include = Include(upstreamRepo: string, groupDir: string)

  /**
   * A parsed manifest. Each top-level key is present (`Some`) or absent
   * (`None`). `hasIncludeKey` records whether the singular key `include`
   * is present; its value is never read.
   */
  datatype Manifest = Manifest(
    config: Option<Config>,
    items: Option<seq<ItemDecl>>,
    repos: Option<seq<string>>,
    customScripts: Option<seq<string>>,
    includes: Option<seq<Include>>,
    hasIncludeKey: bool)

  /**
   * The file system as the resolver sees it. `manifests` (the parsed
   * manifest stored at each path) and `schemas` (the paths where a schema
   * document exists) are the files as they stand after the include loop's
   * clones, which are what bring the include files in on a first run.
   * `present` is the names the `os.path.exists` tests see; they are bare
   * directory names, so relative to the working directory, and this is
   * exact unless that directory is the install root. The empty name is never
   * present, even if listed: see `PathExists`.
   */
  datatype FileSystem = FileSystem(manifests: map<string, Manifest>, schemas: set<string>, present: set<string>)

  /** The resolver's accumulated state: its three lists, and the repositories cloned so far, in order. */
  datatype Lists = Lists(items: seq<ItemDecl>, repos: seq<string>, scripts: seq<string>, cloned: seq<Entities.Repo>)

  const NoLists := Lists([], [], [], [])

  /** The entries under a list-valued key; an absent key contributes nothing. */
  function Entries<T>(field: Option<seq<T>>): seq<T>
  {
    if field.Some? then field.value else []
  }

  /** The three `if key in _data: append each entry` blocks. */
  function AppendOwn(acc: Lists, m: Manifest): Lists
  {
    acc.(items := acc.items + Entries(m.items),
         repos := acc.repos + Entries(m.repos),
         scripts := acc.scripts + Entries(m.customScripts))
  }

  function Concat(a: Lists, b: Lists): Lists
  {
    Lists(a.items + b.items, a.repos + b.repos, a.scripts + b.scripts, a.cloned + b.cloned)
  }

  /** Every list of `after` starts with the corresponding list of `before`: the state only grew by appending. */
  predicate Extends(before: Lists, after: Lists)
  {
    before.items <= after.items && before.repos <= after.repos
    && before.scripts <= after.scripts && before.cloned <= after.cloned
  }

  /** `t` ends with `s`. */
  predicate IsSuffix<T(==)>(s: seq<T>, t: seq<T>)
  {
    |s| <= |t| && t[|t| - |s|..] == s
  }

  /** The state when a step returns or raises, and the error it raised, if any. */
  datatype Outcome = Outcome(lists: Lists, failure: Option<Error>)

  /** The outcome of a step that started from `acc` instead of from empty lists. */
  function Shift(acc: Lists, o: Outcome): Outcome
  {
    Outcome(Concat(acc, o.lists), o.failure)
  }

  /** After a step: append the manifest's own entries, unless the step raised. */
  function Finish(o: Outcome, m: Manifest): Outcome
  {
    if o.failure.Some? then o else Outcome(AppendOwn(o.lists, m), None)
  }

  lemma ConcatAssoc(a: Lists, b: Lists, c: Lists)
    ensures Concat(Concat(a, b), c) == Concat(a, Concat(b, c))
  {
    assert (a.items + b.items) + c.items == a.items + (b.items + c.items);
    assert (a.repos + b.repos) + c.repos == a.repos + (b.repos + c.repos);
    assert (a.scripts + b.scripts) + c.scripts == a.scripts + (b.scripts + c.scripts);
    assert (a.cloned + b.cloned) + c.cloned == a.cloned + (b.cloned + c.cloned);
  }

  lemma ShiftCompose(acc: Lists, mid: Lists, x: Outcome, y: Outcome, t: Outcome)
    requires x == Shift(Concat(acc, mid), t) && y == Shift(mid, t)
    ensures x == Shift(acc, y)
  {
    ConcatAssoc(acc, mid, t.lists);
  }

  /** Two runs of the same step from states that differ only in their clone traces differ only there. */
  lemma SameStepOtherClones(acc: Lists, pre: seq<Entities.Repo>, mid: seq<Entities.Repo>, t: Outcome,
                            full: Outcome, lastOnly: Outcome)
    requires full == Shift(acc.(cloned := acc.cloned + (pre + mid)), t)
    requires lastOnly == Shift(acc.(cloned := acc.cloned + mid), t)
    ensures full.failure == lastOnly.failure
    ensures full.lists.items == lastOnly.lists.items
    ensures full.lists.repos == lastOnly.lists.repos
    ensures full.lists.scripts == lastOnly.lists.scripts
    ensures full.lists.cloned == acc.cloned + pre + lastOnly.lists.cloned[|acc.cloned|..]
  {
    assert lastOnly.lists.cloned == acc.cloned + (mid + t.lists.cloned);
    assert lastOnly.lists.cloned[|acc.cloned|..] == mid + t.lists.cloned;
    assert full.lists.cloned == acc.cloned + pre + (mid + t.lists.cloned);
  }

  lemma ShiftFinish(acc: Lists, o: Outcome, m: Manifest)
    ensures Finish(Shift(acc, o), m) == Shift(acc, Finish(o, m))
  {
    AppendOwnConcat(acc, o.lists, m);
  }

  /** ShiftFinish with every term named, so callers need not unfold either side. */
  lemma ShiftThroughFinish(acc: Lists, x: Outcome, y: Outcome, a: Outcome, b: Outcome, m: Manifest)
    requires a == Finish(x, m) && b == Finish(y, m) && x == Shift(acc, y)
    ensures a == Shift(acc, b)
  {
    ShiftFinish(acc, y, m);
  }

  lemma AppendOwnConcat(a: Lists, b: Lists, m: Manifest)
    ensures AppendOwn(Concat(a, b), m) == Concat(a, AppendOwn(b, m))
  {
    assert (a.items + b.items) + Entries(m.items) == a.items + (b.items + Entries(m.items));
    assert (a.repos + b.repos) + Entries(m.repos) == a.repos + (b.repos + Entries(m.repos));
    assert (a.scripts + b.scripts) + Entries(m.customScripts) == a.scripts + (b.scripts + Entries(m.customScripts));
  }

  /** The file an include entry points at, under install root `root`. */
  function IncludeFile(root: string, inc: Include): string
  {
    IncludePath(root, DerivedDir(inc.upstreamRepo), inc.groupDir)
  }

  /** The abort raised for a manifest path that is not an existing file. */
  function NotAFile(file: string): Error
  {
    Abort(file + " is not a valid file path!")
  }

  /**
   * The path rules of the include loop: the working-directory name a
   * repository is cloned into, and the manifest file an include entry names
   * under an install root. The resolvers are given `SnixLayout`; keeping
   * the rules a parameter lets the merge-order lemmas hold whatever the
   * path arithmetic does.
   */
  datatype Layout = Layout(cloneDir: string -> string, includeFile: (string, Include) -> string)

  const SnixLayout := Layout(DerivedDir, IncludeFile)

  /**
   * The program's rules on a typical include: the repository
   * `https://github.com/acme/dotfiles.git` is cloned into `dotfiles`, and
   * its group `mac` is read from `<root>/dotfiles/mac/mac.snix`.
   */
  lemma {:induction false} SnixLayoutExample()
    ensures SnixLayout.cloneDir("https://github.com/acme/dotfiles.git") == "dotfiles"
    ensures SnixLayout.includeFile("/opt/snix", Include("https://github.com/acme/dotfiles.git", "mac"))
         == "/opt/snix/dotfiles/mac/mac.snix"
  {
    GitUrlDir();
    DotfilesIncludePath();
  }

  /** What the include loop leaves behind: the clones it ran and the last include file it computed (unbound if none). */
  datatype Scan = Scan(cloned: seq<Entities.Repo>, includeFile: Option<string>)

  /** `os.path.exists(name)` against the snapshot: the empty path never exists, whatever the snapshot lists. */
  predicate PathExists(present: set<string>, name: string)
  {
    name != "" && name in present
  }

  /** The clone, if any, the loop runs for one include entry. */
  function CloneFor(root: string, inc: Include, present: set<string>, layout: Layout): seq<Entities.Repo>
  {
    if PathExists(present, layout.cloneDir(inc.upstreamRepo)) then [] else [Entities.CloneRepo(root, inc.upstreamRepo)]
  }

  /**
   * The `for include in includes` loop of `_collect_includes`: clone each
   * include whose derived directory is absent, and overwrite the include
   * file on every iteration, so that only the last one survives the loop.
   */
  function ScanIncludes(root: string, includes: seq<Include>, present: set<string>, layout: Layout): (r: Scan)
    ensures r.includeFile.None? <==> |includes| == 0
    ensures |includes| > 0 ==> r.includeFile == Some(layout.includeFile(root, includes[|includes| - 1]))
    ensures |r.cloned| <= |includes|
    ensures forall k :: 0 <= k < |r.cloned| ==>
      "snix_root" in r.cloned[k].context && r.cloned[k].context["snix_root"] == root
    decreases |includes|
  {
    if |includes| == 0 then Scan([], None)
    else
      var rest := ScanIncludes(root, includes[1..], present, layout);
      var file := if rest.includeFile.Some? then rest.includeFile
                  else Some(layout.includeFile(root, includes[0]));
      Scan(CloneFor(root, includes[0], present, layout) + rest.cloned, file)
  }

  /**
   * The clones of a concatenation of include lists are the clones of each
   * part in turn; with the single-entry case (`CloneFor`) this says the
   * loop clones exactly the includes whose directory is absent, once each,
   * in declaration order.
   */
  lemma {:induction false} ScanConcat(root: string, a: seq<Include>, b: seq<Include>, present: set<string>,
                                      layout: Layout)
    ensures ScanIncludes(root, a + b, present, layout).cloned
         == ScanIncludes(root, a, present, layout).cloned + ScanIncludes(root, b, present, layout).cloned
    decreases |a|
  {
    if |a| == 0 {
      assert a + b == b;
    } else {
      assert (a + b)[0] == a[0] && (a + b)[1..] == a[1..] + b;
      ScanConcat(root, a[1..], b, present, layout);
      ScanStep(root, a + b, present, layout);
      ScanStep(root, a, present, layout);
      SeqAssoc(CloneFor(root, a[0], present, layout), ScanIncludes(root, a[1..], present, layout).cloned,
               ScanIncludes(root, b, present, layout).cloned);
    }
  }

  lemma SeqAssoc<T>(x: seq<T>, y: seq<T>, z: seq<T>)
    ensures x + (y + z) == (x + y) + z
  {
  }

  /** One iteration of the include loop: the first entry's clone comes before the rest's. */
  lemma ScanStep(root: string, includes: seq<Include>, present: set<string>, layout: Layout)
    requires |includes| > 0
    ensures ScanIncludes(root, includes, present, layout).cloned
         == CloneFor(root, includes[0], present, layout) + ScanIncludes(root, includes[1..], present, layout).cloned
  {
  }

  lemma {:induction false} ScanSingle(root: string, inc: Include, present: set<string>, layout: Layout)
    ensures ScanIncludes(root, [inc], present, layout).cloned == CloneFor(root, inc, present, layout)
  {
    assert [inc][1..] == [];
  }

  /**
   * A repository URL ending in `/` derives the empty directory name, which
   * `os.path.exists` never reports, so its include is cloned every time.
   */
  lemma TrailingSlashAlwaysCloned(root: string, inc: Include, present: set<string>)
    requires |inc.upstreamRepo| > 0 && inc.upstreamRepo[|inc.upstreamRepo| - 1] == '/'
    ensures CloneFor(root, inc, present, SnixLayout) == [Entities.CloneRepo(root, inc.upstreamRepo)]
  {
    var u := inc.upstreamRepo;
    var d := DerivedDir(u);
    assert d == "";
  }

  /** `dict.update`: the keys of both, and on shared keys the value from `config`. */
  function Overlay(base: map<string, string>, config: Config): (r: map<string, string>)
    ensures r.Keys == base.Keys + config.Keys
    ensures forall key :: key in config ==> r[key] == config[key]
    ensures forall key :: key in base && key !in config ==> r[key] == base[key]
  {
    base + config
  }

  /** Every declared name, entry by entry, each entry's names in order. */
  function AllNames(decls: seq<ItemDecl>): seq<string>
    decreases |decls|
  {
    if |decls| == 0 then [] else decls[0].names + AllNames(decls[1..])
  }

  /** The `via` of the entry each name of `AllNames` comes from, position by position. */
  function AllVias(decls: seq<ItemDecl>): (r: seq<string>)
    ensures |r| == |AllNames(decls)|
    decreases |decls|
  {
    if |decls| == 0 then []
    else seq(|decls[0].names|, _ => decls[0].via) + AllVias(decls[1..])
  }

  /**
   * `get_items` of context.py: one item per declared name, in
   * entry-then-name order, whose context is `{name, via}` updated with the
   * root configuration.
   */
  function ItemsOf(decls: seq<ItemDecl>, config: Config): (r: seq<Items.Item>)
    ensures |r| == |AllNames(decls)|
    ensures forall k :: 0 <= k < |r| ==>
      r[k] == Items.Item(Overlay(map["name" := AllNames(decls)[k], "via" := AllVias(decls)[k]], config))
    decreases |decls|
  {
    if |decls| == 0 then []
    else
      var d := decls[0];
      seq(|d.names|, j requires 0 <= j < |d.names| =>
          Items.Item(Overlay(map["name" := d.names[j], "via" := d.via], config)))
      + ItemsOf(decls[1..], config)
  }

  /** The context of one repository or script: its location under `key`, updated with the configuration. */
  function Located(key: string, locations: seq<string>, config: Config): (r: seq<map<string, string>>)
    ensures |r| == |locations|
    ensures forall k :: 0 <= k < |r| ==> r[k] == Overlay(map[key := locations[k]], config)
    decreases |locations|
  {
    if |locations| == 0 then []
    else [Overlay(map[key := locations[0]], config)] + Located(key, locations[1..], config)
  }

  /** `get_repos`: one repository per entry, in order, with context `{repo_location}` updated with the configuration. */
  function ReposOf(repos: seq<string>, config: Config): (r: seq<Entities.Repo>)
    ensures |r| == |repos|
    ensures forall k :: 0 <= k < |r| ==> r[k].context.Keys == {"repo_location"} + config.Keys
    ensures forall k :: 0 <= k < |r| ==>
      r[k].context["repo_location"] == (if "repo_location" in config then config["repo_location"] else repos[k])
    ensures forall k, key :: 0 <= k < |r| && key in config ==> r[k].context[key] == config[key]
  {
    var contexts := Located("repo_location", repos, config);
    seq(|contexts|, k requires 0 <= k < |contexts| => Entities.Repo(contexts[k]))
  }

  /** `get_custom_scripts`: one script per entry, in order, with context `{script_location}` updated with the configuration. */
  function ScriptsOf(scripts: seq<string>, config: Config): (r: seq<Entities.Script>)
    ensures |r| == |scripts|
    ensures forall k :: 0 <= k < |r| ==> r[k].context.Keys == {"script_location"} + config.Keys
    ensures forall k :: 0 <= k < |r| ==>
      r[k].context["script_location"] == (if "script_location" in config then config["script_location"] else scripts[k])
    ensures forall k, key :: 0 <= k < |r| && key in config ==> r[k].context[key] == config[key]
  {
    var contexts := Located("script_location", scripts, config);
    seq(|contexts|, k requires 0 <= k < |contexts| => Entities.Script(contexts[k]))
  }
}

=== FILE: paths.dfy ===
/** Path arithmetic of the include resolver: `os.path.join` and the directory derived from a repository URL. */
module Paths {
  import opened Strings

  /**
   * `posixpath.join(a, b)`: an absolute `b` replaces `a`; otherwise a `/`
   * is inserted unless `a` is empty or already ends with one.
   */
  function Join(a: string, b: string): string
  {
    if |b| > 0 && b[0] == '/' then b
    else if a == "" || a[|a| - 1] == '/' then a + b
    else a + "/" + b
  }

  /** `os.path.join(root, '_snix', 'schema.json')`, where the validator's schema is read from. */
  function SchemaPath(root: string): (p: string)
    ensures root != "" && root[|root| - 1] != '/' ==> p == root + "/_snix/schema.json"
  {
    Join(Join(root, "_snix"), "schema.json")
  }

  /**
   * `repo.split('/')[-1].split('.')[0]`: the last `/`-segment of an
   * upstream repository, cut at its first `.`.
   */
  function DerivedDir(upstreamRepo: string): (d: string)
    ensures '/' !in d && '.' !in d
    ensures var i := |upstreamRepo| - |LastSegment(upstreamRepo, '/')|;
      && i + |d| <= |upstreamRepo|
      && d == upstreamRepo[i..i + |d|]
      && (i == 0 || upstreamRepo[i - 1] == '/')
      && '/' !in upstreamRepo[i..]
      && (i + |d| == |upstreamRepo| || upstreamRepo[i + |d|] == '.')
  {
    var segment := LastSegment(upstreamRepo, '/');
    var d := BeforeFirst(segment, '.');
    CutFacts(upstreamRepo, segment, d);
    d
  }

  /** The DerivedDir facts, from the contracts of the two cuts, with the cuts as plain values. */
  lemma CutFacts(s: string, segment: string, d: string)
    requires |segment| <= |s| && segment == s[|s| - |segment|..] && '/' !in segment
    requires |segment| < |s| ==> s[|s| - |segment| - 1] == '/'
    requires |d| <= |segment| && d == segment[..|d|] && '.' !in d
    requires |d| < |segment| ==> segment[|d|] == '.'
    ensures var i := |s| - |segment|;
      && '/' !in d
      && i + |d| <= |s|
      && d == s[i..i + |d|]
      && (i == 0 || s[i - 1] == '/')
      && '/' !in s[i..]
      && (i + |d| == |s| || s[i + |d|] == '.')
  {
    var i := |s| - |segment|;
    assert forall c :: c in d ==> c in segment;
    assert s[i..i + |d|] == segment[..|d|];
    if |d| < |segment| {
      assert s[i + |d|] == segment[|d|];
    }
  }

  /**
   * The converse of DerivedDir's contract: any slice of the repository
   * string that starts after the last `/` and stops at the first `.` after
   * it (or at the end) is the derived directory.
   */
  lemma {:induction false} DerivedDirUnique(upstreamRepo: string, i: nat, j: nat)
    requires i <= j <= |upstreamRepo|
    requires i == 0 || upstreamRepo[i - 1] == '/'
    requires '/' !in upstreamRepo[i..]
    requires '.' !in upstreamRepo[i..j]
    requires j == |upstreamRepo| || upstreamRepo[j] == '.'
    ensures DerivedDir(upstreamRepo) == upstreamRepo[i..j]
  {
    var segment := LastSegment(upstreamRepo, '/');
    var k := |upstreamRepo| - |segment|;
    if k < i {
      assert false;
    } else if k > i {
      assert false;
    }
    assert segment == upstreamRepo[i..];
    var d := BeforeFirst(segment, '.');
    var n := j - i;
    if |d| < n {
      assert false;
    } else if |d| > n {
      assert false;
    }
    assert d == segment[..n] == upstreamRepo[i..j];
  }

  /**
   * `os.path.join(root, dir, grp, grp + '.snix')`, the included manifest's
   * path. In the ordinary case it is `root/dir/grp/grp.snix`; an empty
   * directory collapses to `root/grp/grp.snix`, and an absolute group
   * directory makes the last component absolute too, so every earlier
   * component is discarded and the path is `grp.snix` beside the group
   * directory rather than inside it.
   */
  function IncludePath(root: string, dir: string, groupDir: string): (p: string)
    ensures root != "" && root[|root| - 1] != '/' && dir != "" && '/' !in dir
        && groupDir != "" && groupDir[0] != '/' && groupDir[|groupDir| - 1] != '/'
        ==> p == root + "/" + dir + "/" + groupDir + "/" + groupDir + ".snix"
    ensures root != "" && root[|root| - 1] != '/' && dir == ""
        && groupDir != "" && groupDir[0] != '/' && groupDir[|groupDir| - 1] != '/'
        ==> p == root + "/" + groupDir + "/" + groupDir + ".snix"
    ensures groupDir != "" && groupDir[0] == '/' ==> p == groupDir + ".snix"
  {
    Join(Join(Join(root, dir), groupDir), groupDir + ".snix")
  }

  /** A GitHub clone URL: the derived directory is the repository name without `.git`. */
  lemma {:induction false} GitUrlDir()
    ensures DerivedDir("https://github.com/acme/dotfiles.git") == "dotfiles"
  {
    var repo := "https://github.com/acme/dotfiles.git";
    assert repo[23] == '/' && repo[32] == '.';
    assert repo[24..] == "dotfiles.git";
    assert '/' !in repo[24..];
    assert repo[24..32] == "dotfiles";
    assert '.' !in repo[24..32];
    DerivedDirUnique(repo, 24, 32);
  }

  /** The include path of group `mac` in the clone `dotfiles` under `/opt/snix`. */
  lemma DotfilesIncludePath()
    ensures IncludePath("/opt/snix", "dotfiles", "mac") == "/opt/snix/dotfiles/mac/mac.snix"
  {
  }
}

=== FILE: regex.dfy ===
/**
 * The fragment of Python's `re` that the installers use: a pattern anchored
 * at both ends (`^…$`), made of character classes and optional groups of
 * classes, matched with or without `re.I`.
 */
module Regex {
  import opened Strings

  /** One position of a pattern: a class such as `[bB]` (a literal is a one-character class), or a group `(…)?`. */
  datatype Atom =
    | Class(chars: string)
    | Optional(group: seq<string>)

  type Pattern = seq<Atom>

  /** How `re` compares one pattern character with one input character. */
  predicate CharMatches(p: char, c: char, ignoreCase: bool)
  {
    if ignoreCase then Lower(p) == Lower(c) else p == c
  }

  predicate InClass(chars: string, c: char, ignoreCase: bool)
    decreases |chars|
  {
    |chars| > 0 && (CharMatches(chars[0], c, ignoreCase) || InClass(chars[1..], c, ignoreCase))
  }

  /** The classes of a group accept the first |group| characters of `s`. */
  predicate GroupMatches(group: seq<string>, s: string, ignoreCase: bool)
  {
    |group| <= |s| && forall i :: 0 <= i < |group| ==> InClass(group[i], s[i], ignoreCase)
  }

  /**
   * `re.match("^" + p + "$", s)` succeeds. An optional group is tried first
   * and then skipped, as the backtracking matcher does; the answer does not
   * depend on that order.
   */
  predicate Matches(p: Pattern, s: string, ignoreCase: bool)
    decreases |p|
  {
    if |p| == 0 then |s| == 0
    else match p[0]
      case Class(chars) =>
        |s| > 0 && InClass(chars, s[0], ignoreCase) && Matches(p[1..], s[1..], ignoreCase)
      case Optional(group) =>
        (GroupMatches(group, s, ignoreCase) && Matches(p[1..], s[|group|..], ignoreCase))
        || Matches(p[1..], s, ignoreCase)
  }

  /**
   * `re.match` of a pattern written `^…$`: `$` matches at the end of the
   * input, and also just before a newline that ends it.
   */
  predicate ReMatch(p: Pattern, s: string, ignoreCase: bool)
  {
    Matches(p, s, ignoreCase) || (|s| > 0 && s[|s| - 1] == '\n' && Matches(p, s[..|s| - 1], ignoreCase))
  }

  predicate AllClasses(p: Pattern)
  {
    forall i :: 0 <= i < |p| ==> p[i].Class?
  }

  /** A pattern of classes only accepts `t` character by character. */
  predicate ClassesAccept(p: Pattern, t: string, ignoreCase: bool)
    requires AllClasses(p)
  {
    |t| == |p| && forall i :: 0 <= i < |p| ==> InClass(p[i].chars, t[i], ignoreCase)
  }

  /** A class compared under `re.I` accepts exactly the characters whose lower case is that of one of its members. */
  lemma {:induction false} InClassIgnoreCase(chars: string, c: char)
    ensures InClass(chars, c, true) <==> Lower(c) in Fold(chars)
    decreases |chars|
  {
    if |chars| > 0 {
      InClassIgnoreCase(chars[1..], c);
      assert Fold(chars) == [Lower(chars[0])] + Fold(chars[1..]);
    }
  }

  /** A run of classes consumes exactly one character per class before the rest of the pattern takes over. */
  lemma {:induction false} ClassesThen(p: Pattern, rest: Pattern, s: string, ignoreCase: bool)
    requires AllClasses(p)
    ensures Matches(p + rest, s, ignoreCase)
        <==> |p| <= |s| && ClassesAccept(p, s[..|p|], ignoreCase) && Matches(rest, s[|p|..], ignoreCase)
    decreases |p|
  {
    if |p| == 0 {
      assert p + rest == rest;
      assert s[|p|..] == s;
    } else {
      assert (p + rest)[0] == p[0];
      assert (p + rest)[1..] == p[1..] + rest;
      assert AllClasses(p[1..]);
      if |s| > 0 {
        ClassesThen(p[1..], rest, s[1..], ignoreCase);
        if |p| <= |s| {
          var t := s[..|p|];
          assert s[1..][..|p| - 1] == t[1..];
          assert s[1..][|p| - 1..] == s[|p|..];
          assert ClassesAccept(p, t, ignoreCase)
              <==> InClass(p[0].chars, s[0], ignoreCase) && ClassesAccept(p[1..], t[1..], ignoreCase)
          by {
            if InClass(p[0].chars, s[0], ignoreCase) && ClassesAccept(p[1..], t[1..], ignoreCase) {
              forall i | 0 <= i < |p| ensures InClass(p[i].chars, t[i], ignoreCase) {
                if i > 0 { assert p[1..][i - 1] == p[i] && t[1..][i - 1] == t[i]; }
              }
            }
          }
        }
      }
    }
  }

  /** A trailing optional group: the input is empty or is exactly what the group accepts. */
  lemma OptionalTail(group: seq<string>, s: string, ignoreCase: bool)
    ensures Matches([Optional(group)], s, ignoreCase)
        <==> |s| == 0 || (|s| == |group| && GroupMatches(group, s, ignoreCase))
  {
    assert [Optional(group)][1..] == [];
  }
}

=== FILE: runtime.dfy ===
/**
 * What the Python program can raise and what it does to the outside world.
 * Exceptions and aborts become `Error` values; process spawns and log lines
 * become `Effect` values recorded in a `Trace`.
 */
module Runtime {
  import opened Wrappers

  /** One constructor per kind of exception or abort the core can end in. */
  datatype Error =
    | Abort(message: string)          // snixCore.abort: log the message and stop
    | KeyMissing(key: string)         // KeyError on a dict lookup
    | FileMissing(path: string)       // IOError from open()
    | SchemaViolation(path: string)   // the manifest at `path` failed schema validation
    | IncludeFileUnbound              // UnboundLocalError: an empty `includes` list never bound the include file
    | NotIterable                     // TypeError: unpacking the None that build_install_cmd returned
    | NoInstaller                     // AttributeError: calling a method on a None installer
    | EncodeError                     // UnicodeEncodeError: a non-ASCII unicode value formatted into a byte-string template
    | SplitError                      // ValueError from shlex.split: a quotation left open or a trailing backslash
    | RecursionLimit                  // RuntimeError: maximum recursion depth exceeded

  /** An observable action: a log line, or a process spawned with or without a shell. */
  datatype Effect =
    | Log(message: string)
    | Run(command: string, shell: bool)

  /** The effects performed, in order, and the error that stopped the run, if any. */
  datatype Trace = Trace(effects: seq<Effect>, failure: Option<Error>)

  /** The number of processes spawned in a sequence of effects. */
  function RunCount(effects: seq<Effect>): nat
  {
    if |effects| == 0 then 0
    else (if effects[0].Run? then 1 else 0) + RunCount(effects[1..])
  }
}

=== FILE: shlex.dfy ===
/**
 * `shlex.split` in POSIX mode, as far as whether it raises: a quotation
 * still open at the end raises "No closing quotation", and a backslash at
 * the very end, outside single quotes, raises "No escaped character". The
 * words it produces are not modelled.
 */
module Shlex {

  /**
   * Where the lexer stands: outside quotes, inside `'…'` or `"…"`, or just
   * after a backslash outside quotes or inside `"…"`. Inside `'…'` a
   * backslash is an ordinary character.
   */
  datatype LexState = Outside | InSingle | InDouble | EscapedOutside | EscapedInDouble

  /** The characters that change the lexer's state outside quotes. */
  predicate Special(c: char)
  {
    c == '\\' || c == '\'' || c == '"'
  }

  function Step(st: LexState, c: char): LexState
  {
    match st
    case Outside =>
      if c == '\\' then EscapedOutside
      else if c == '\'' then InSingle
      else if c == '"' then InDouble
      else Outside
    case InSingle => if c == '\'' then Outside else InSingle
    case InDouble =>
      if c == '"' then Outside
      else if c == '\\' then EscapedInDouble
      else InDouble
    case EscapedOutside => Outside
    case EscapedInDouble => InDouble
  }

  /** The state after reading all of `s` from `st`. */
  function Final(s: string, st: LexState): LexState
    decreases |s|
  {
    if |s| == 0 then st else Final(s[1..], Step(st, s[0]))
  }

  /** `shlex.split(s)` returns rather than raising ValueError: the input ends outside any quote or escape. */
  predicate Splits(s: string)
  {
    Final(s, Outside) == Outside
  }

  /** Reading `a + b` is reading `a`, then `b` from where `a` left off. */
  lemma {:induction false} FinalConcat(a: string, b: string, st: LexState)
    ensures Final(a + b, st) == Final(b, Final(a, st))
    decreases |a|
  {
    if |a| > 0 {
      assert (a + b)[1..] == a[1..] + b;
      FinalConcat(a[1..], b, Step(st, a[0]));
    } else {
      assert a + b == b;
    }
  }

  /** Text without quotes or backslashes leaves the lexer outside quotes. */
  lemma {:induction false} PlainStaysOutside(a: string)
    requires forall i :: 0 <= i < |a| ==> !Special(a[i])
    ensures Final(a, Outside) == Outside
    decreases |a|
  {
    if |a| > 0 {
      PlainStaysOutside(a[1..]);
    }
  }

  /** A prefix without quotes or backslashes does not change whether a command line splits. */
  lemma PlainPrefix(prefix: string, rest: string)
    requires forall i :: 0 <= i < |prefix| ==> !Special(prefix[i])
    ensures Splits(prefix + rest) <==> Splits(rest)
  {
    FinalConcat(prefix, rest, Outside);
    PlainStaysOutside(prefix);
  }

  /** An unbalanced double quote and a trailing backslash both make the split raise; balanced quoting does not. */
  lemma SplitExamples()
    ensures !Splits("a\"b")
    ensures !Splits("a\\")
    ensures Splits("'a b'")
    ensures Splits("a\\\"b")
  {
    assert Final("a\"b", Outside) == Final("\"b", Outside) == Final("b", InDouble) == InDouble;
    assert Final("a\\", Outside) == Final("\\", Outside) == EscapedOutside;
    assert Final("'a b'", Outside) == Final("a b'", InSingle) == Final(" b'", InSingle)
        == Final("b'", InSingle) == Final("'", InSingle) == Outside;
    assert Final("a\\\"b", Outside) == Final("\\\"b", Outside) == Final("\"b", EscapedOutside)
        == Final("b", Outside) == Outside;
  }
}

=== FILE: snix_context.dfy ===
/**
 * snixContext.py: the same include resolver as context.py, rooted at the
 * install home read from the user's configuration instead of the
 * manifest's `snix_root`, with no schema validation and no configuration
 * overlay on the items, repositories and scripts it builds.
 *
 * `home` is the value `snix.home` read from the user's configuration file;
 * reading that file is not modelled.
 */
module SnixContext {
  import opened Wrappers
  import opened Runtime
  import opened Manifests
  import Items
  import Entities

  /** The object after `construct_from`: its lists, and the error that ended construction, if any. */
  datatype Resolution = Resolution(lists: Lists, failure: Option<Error>)

  /**
   * `snixContext.construct_from`: `__init__`'s file check, then
   * `_construct`. The includes, when the key is present, are collected
   * before the manifest's own entries are appended. The path rules are a
   * parameter; `ConstructFrom` fixes them to `SnixLayout`.
   */
  function Construct(fs: FileSystem, file: string, home: string, layout: Layout, fuel: nat): (r: Resolution)
    ensures file !in fs.manifests ==> r == Resolution(NoLists, Some(NotAFile(file)))
    ensures r.failure.None? ==>
        && file in fs.manifests
        && var own := fs.manifests[file];
        && IsSuffix(Entries(own.items), r.lists.items)
        && IsSuffix(Entries(own.repos), r.lists.repos)
        && IsSuffix(Entries(own.customScripts), r.lists.scripts)
    ensures file in fs.manifests && fs.manifests[file].includes.None?
        ==> r == Resolution(AppendOwn(NoLists, fs.manifests[file]), None)
    ensures file in fs.manifests && fs.manifests[file].includes == Some([])
        ==> r.failure == Some(IncludeFileUnbound) && r.lists == NoLists
  {
    if file !in fs.manifests then Resolution(NoLists, Some(NotAFile(file)))
    else
      var data := fs.manifests[file];
      var included :=
        if data.includes.Some? then CollectIncludes(fs, home, data, layout, NoLists, fuel)
        else Outcome(NoLists, None);
      var resolved := Finish(included, data);
      Resolution(resolved.lists, resolved.failure)
  }

  /** `snixContext.construct_from` with the program's own path rules. */
  function ConstructFrom(fs: FileSystem, file: string, home: string, fuel: nat): Resolution
  {
    Construct(fs, file, home, SnixLayout, fuel)
  }

  /**
   * `_collect_includes`: the include loop under `home`, then only the file
   * the last iteration computed. The key `includes` is read unguarded, so a
   * nested manifest with `include` but no `includes` raises a KeyError.
   */
  function CollectIncludes(fs: FileSystem, home: string, data: Manifest, layout: Layout, acc: Lists, fuel: nat)
    : (o: Outcome)
    ensures Extends(acc, o.lists)
    ensures data.includes.None? ==> o == Outcome(acc, Some(KeyMissing("includes")))
    ensures data.includes == Some([]) ==> o.failure == Some(IncludeFileUnbound)
    decreases fuel, 1
  {
    if data.includes.None? then Outcome(acc, Some(KeyMissing("includes")))
    else
      var scan := ScanIncludes(home, data.includes.value, fs.present, layout);
      var cloned := acc.(cloned := acc.cloned + scan.cloned);
      match scan.includeFile
      case None => Outcome(cloned, Some(IncludeFileUnbound))
      case Some(includeFile) => CollectFromFile(fs, home, includeFile, layout, cloned, fuel)
  }

  /**
   * `_collect_from_file`: read an included manifest, follow its includes
   * only when it has the key `include` (singular), then append its own
   * entries. Nothing is validated.
   */
  function CollectFromFile(fs: FileSystem, home: string, file: string, layout: Layout, acc: Lists, fuel: nat)
    : (o: Outcome)
    ensures Extends(acc, o.lists)
    ensures file !in fs.manifests ==> o == Outcome(acc, Some(FileMissing(file)))
    ensures o.failure.None? ==> file in fs.manifests
    ensures file in fs.manifests && !fs.manifests[file].hasIncludeKey
        ==> o == Outcome(AppendOwn(acc, fs.manifests[file]), None)
    decreases fuel, 0
  {
    if file !in fs.manifests then Outcome(acc, Some(FileMissing(file)))
    else
      var data := fs.manifests[file];
      var nested :=
        if !data.hasIncludeKey then Outcome(acc, None)
        else if fuel == 0 then Outcome(acc, Some(RecursionLimit))
        else CollectIncludes(fs, home, data, layout, acc, fuel - 1);
      Finish(nested, data)
  }

  /** An included manifest whose includes are followed. */
  predicate FollowsNested(fs: FileSystem, file: string, fuel: nat)
  {
    file in fs.manifests && fs.manifests[file].hasIncludeKey && fuel > 0
  }

  /**
   * What a collection step appends does not depend on what was accumulated
   * before it: starting from `acc` gives `acc` followed by what starting
   * from empty lists gives, and the same error.
   */
  lemma {:induction false} FromFileShift(fs: FileSystem, home: string, file: string, layout: Layout,
                                         acc: Lists, fuel: nat)
    ensures CollectFromFile(fs, home, file, layout, acc, fuel)
         == Shift(acc, CollectFromFile(fs, home, file, layout, NoLists, fuel))
    decreases fuel, 0, 1
  {
    assert Concat(acc, NoLists) == acc;
    if FollowsNested(fs, file, fuel) {
      NestedShift(fs, home, file, layout, acc, fuel);
    } else if file in fs.manifests && !fs.manifests[file].hasIncludeKey {
      AppendOwnConcat(acc, NoLists, fs.manifests[file]);
    }
  }

  /** One unfolding of CollectFromFile on a file whose includes are followed. */
  lemma NestedUnfold(fs: FileSystem, home: string, file: string, layout: Layout, acc: Lists, fuel: nat)
    requires FollowsNested(fs, file, fuel)
    ensures CollectFromFile(fs, home, file, layout, acc, fuel)
         == Finish(CollectIncludes(fs, home, fs.manifests[file], layout, acc, fuel - 1), fs.manifests[file])
  {
  }

  /** FromFileShift when a nested include is followed. */
  lemma {:induction false} NestedShift(fs: FileSystem, home: string, file: string, layout: Layout,
                                       acc: Lists, fuel: nat)
    requires FollowsNested(fs, file, fuel)
    ensures CollectFromFile(fs, home, file, layout, acc, fuel)
         == Shift(acc, CollectFromFile(fs, home, file, layout, NoLists, fuel))
    decreases fuel, 0, 0
  {
    var data := fs.manifests[file];
    NestedUnfold(fs, home, file, layout, acc, fuel);
    NestedUnfold(fs, home, file, layout, NoLists, fuel);
    IncludesShift(fs, home, data, layout, acc, fuel - 1);
    ShiftFinish(acc, CollectIncludes(fs, home, data, layout, NoLists, fuel - 1), data);
  }

  lemma {:induction false} IncludesShift(fs: FileSystem, home: string, data: Manifest, layout: Layout,
                                         acc: Lists, fuel: nat)
    ensures CollectIncludes(fs, home, data, layout, acc, fuel)
         == Shift(acc, CollectIncludes(fs, home, data, layout, NoLists, fuel))
    decreases fuel, 1, 0
  {
    assert Concat(acc, NoLists) == acc;
    if data.includes.Some? {
      var scan := ScanIncludes(home, data.includes.value, fs.present, layout);
      var withClones := acc.(cloned := acc.cloned + scan.cloned);
      var fromEmpty := NoLists.(cloned := NoLists.cloned + scan.cloned);
      assert withClones == Concat(acc, fromEmpty);
      if scan.includeFile.Some? {
        var file := scan.includeFile.value;
        FromFileShift(fs, home, file, layout, withClones, fuel);
        FromFileShift(fs, home, file, layout, fromEmpty, fuel);
        ShiftCompose(acc, fromEmpty,
                     CollectFromFile(fs, home, file, layout, withClones, fuel),
                     CollectFromFile(fs, home, file, layout, fromEmpty, fuel),
                     CollectFromFile(fs, home, file, layout, NoLists, fuel));
      }
    }
  }

  /**
   * Includes whose last file exists and has no nested `include` key
   * contribute that file's entries and the include loop's clones, and raise
   * nothing.
   */
  lemma {:induction false} LastIncludeCollected(fs: FileSystem, home: string, data: Manifest, layout: Layout,
                                                fuel: nat)
    requires data.includes.Some? && |data.includes.value| > 0
    requires var includes := data.includes.value;
      var last := layout.includeFile(home, includes[|includes| - 1]);
      last in fs.manifests && !fs.manifests[last].hasIncludeKey
    ensures var includes := data.includes.value;
      var included := fs.manifests[layout.includeFile(home, includes[|includes| - 1])];
      CollectIncludes(fs, home, data, layout, NoLists, fuel)
        == Outcome(Lists(Entries(included.items), Entries(included.repos), Entries(included.customScripts),
                         ScanIncludes(home, includes, fs.present, layout).cloned),
                   None)
  {
    var scan := ScanIncludes(home, data.includes.value, fs.present, layout);
    assert NoLists.cloned + scan.cloned == scan.cloned;
  }

  /**
   * Merge order: with includes whose last file has no nested `include` key,
   * the lists are that file's entries followed by the manifest's own, and
   * the clone trace is exactly the include loop's.
   */
  lemma {:induction false} IncludeBeforeOwn(fs: FileSystem, file: string, home: string, layout: Layout, fuel: nat)
    requires file in fs.manifests
    requires fs.manifests[file].includes.Some? && |fs.manifests[file].includes.value| > 0
    requires var includes := fs.manifests[file].includes.value;
      var last := layout.includeFile(home, includes[|includes| - 1]);
      last in fs.manifests && !fs.manifests[last].hasIncludeKey
    ensures var root := fs.manifests[file];
      var includes := root.includes.value;
      var included := fs.manifests[layout.includeFile(home, includes[|includes| - 1])];
      Construct(fs, file, home, layout, fuel)
        == Resolution(Lists(Entries(included.items) + Entries(root.items),
                            Entries(included.repos) + Entries(root.repos),
                            Entries(included.customScripts) + Entries(root.customScripts),
                            ScanIncludes(home, includes, fs.present, layout).cloned),
                      None)
  {
    LastIncludeCollected(fs, home, fs.manifests[file], layout, fuel);
  }

  /** One unfolding of CollectIncludes on a non-empty include list: the clones, then the last entry's file. */
  lemma IncludesUnfold(fs: FileSystem, home: string, data: Manifest, layout: Layout, acc: Lists, fuel: nat)
    requires data.includes.Some? && |data.includes.value| > 0
    ensures var includes := data.includes.value;
      var scan := ScanIncludes(home, includes, fs.present, layout);
      CollectIncludes(fs, home, data, layout, acc, fuel)
        == CollectFromFile(fs, home, layout.includeFile(home, includes[|includes| - 1]), layout,
                           acc.(cloned := acc.cloned + scan.cloned), fuel)
  {
  }

  /**
   * Only the last include entry's file is read: dropping every earlier
   * entry changes the clone trace and nothing else.
   */
  lemma {:induction false} OnlyLastIncludeRead(fs: FileSystem, home: string, data: Manifest, layout: Layout,
                                               earlier: seq<Include>, last: Include, acc: Lists, fuel: nat)
    requires data.includes == Some(earlier + [last])
    ensures var full := CollectIncludes(fs, home, data, layout, acc, fuel);
      var lastOnly := CollectIncludes(fs, home, data.(includes := Some([last])), layout, acc, fuel);
      && full.failure == lastOnly.failure
      && full.lists.items == lastOnly.lists.items
      && full.lists.repos == lastOnly.lists.repos
      && full.lists.scripts == lastOnly.lists.scripts
      && full.lists.cloned
         == acc.cloned + ScanIncludes(home, earlier, fs.present, layout).cloned
            + lastOnly.lists.cloned[|acc.cloned|..]
  {
    var lastData := data.(includes := Some([last]));
    assert (earlier + [last])[|earlier + [last]| - 1] == last;
    var pre := ScanIncludes(home, earlier, fs.present, layout).cloned;
    var mid := ScanIncludes(home, [last], fs.present, layout).cloned;
    ScanConcat(home, earlier, [last], fs.present, layout);
    var file := layout.includeFile(home, last);
    IncludesUnfold(fs, home, data, layout, acc, fuel);
    IncludesUnfold(fs, home, lastData, layout, acc, fuel);
    var accFull := acc.(cloned := acc.cloned + (pre + mid));
    var accLast := acc.(cloned := acc.cloned + mid);
    FromFileShift(fs, home, file, layout, accFull, fuel);
    FromFileShift(fs, home, file, layout, accLast, fuel);
    SameStepOtherClones(acc, pre, mid, CollectFromFile(fs, home, file, layout, NoLists, fuel),
                                CollectFromFile(fs, home, file, layout, accFull, fuel),
                                CollectFromFile(fs, home, file, layout, accLast, fuel));
  }

  /** `get_items`: one item per declared name, in entry-then-name order, whose context is exactly `{name, via}`. */
  function GetItems(r: Resolution): (items: seq<Items.Item>)
    ensures |items| == |AllNames(r.lists.items)|
    ensures forall k :: 0 <= k < |items| ==>
      items[k].context == map["name" := AllNames(r.lists.items)[k], "via" := AllVias(r.lists.items)[k]]
  {
    var items := ItemsOf(r.lists.items, map[]);
    assert forall k :: 0 <= k < |items| ==>
      items[k].context == map["name" := AllNames(r.lists.items)[k], "via" := AllVias(r.lists.items)[k]];
    items
  }

  /** `get_repos`: one repository per entry, in order, whose context is exactly `{repo_location}`. */
  function GetRepos(r: Resolution): (repos: seq<Entities.Repo>)
    ensures |repos| == |r.lists.repos|
    ensures forall k :: 0 <= k < |repos| ==> repos[k].context == map["repo_location" := r.lists.repos[k]]
  {
    var repos := ReposOf(r.lists.repos, map[]);
    assert forall k :: 0 <= k < |repos| ==> repos[k].context == map["repo_location" := r.lists.repos[k]];
    repos
  }

  /** `get_custom_scripts`: one script per entry, in order, whose context is exactly `{script_location}`. */
  function GetCustomScripts(r: Resolution): (scripts: seq<Entities.Script>)
    ensures |scripts| == |r.lists.scripts|
    ensures forall k :: 0 <= k < |scripts| ==> scripts[k].context == map["script_location" := r.lists.scripts[k]]
  {
    var scripts := ScriptsOf(r.lists.scripts, map[]);
    assert forall k :: 0 <= k < |scripts| ==> scripts[k].context == map["script_location" := r.lists.scripts[k]];
    scripts
  }
}

=== FILE: snix_items.dfy ===
/**
 * snixItem.py, the older installer factory: classify a manifest value as a
 * Homebrew descriptor, a URL, or a raw shell command, in that order, and
 * delegate an item's install, remove and update to its installer.
 */
module SnixItems {
  import opened Wrappers
  import opened Strings
  import opened Runtime
  import opened Regex

  /** `^brew$`, compiled with `re.I`. */
  const BrewOnlyPattern: Pattern := [Class("b"), Class("r"), Class("e"), Class("w")]

  /** The two parts of `urlparse.urlparse(value)` the factory inspects; URL parsing itself is a parameter. */
  datatype UrlParts = UrlParts(scheme: string, netloc: string)

  /** `parsedUrl.scheme and parsedUrl.netloc`: both parts non-empty. */
  predicate HasLocation(u: UrlParts)
  {
    u.scheme != "" && u.netloc != ""
  }

  /** The values `^brew$` accepts under `re.I`: "brew" in any letter case, possibly followed by one newline. */
  predicate IsBrewName(value: string)
  {
    Fold(value) == "brew" || (|value| > 0 && value[|value| - 1] == '\n' && Fold(value[..|value| - 1]) == "brew")
  }

  /** Which branch of `Installer.forItem` a value takes. */
  datatype Strategy = Brew | Url | Command

  /** The branch of `forItem`: the Homebrew test first, then the URL test, then the fallback. */
  function Classify(value: string, urlparse: string -> UrlParts): (s: Strategy)
    ensures s == Brew <==> IsBrewName(value)
    ensures s == Url <==> !IsBrewName(value) && HasLocation(urlparse(value))
    ensures s == Command <==> !IsBrewName(value) && !HasLocation(urlparse(value))
  {
    BrewNameMeaning(value);
    if ReMatch(BrewOnlyPattern, value, true) then Brew
    else if HasLocation(urlparse(value)) then Url
    else Command
  }

  /** The only installer the factory ever builds: it runs its value verbatim in a shell. */
  datatype Installer = CommandInstaller(command: string)

  /**
   * `Installer.forItem`. The Homebrew and URL branches only `pass`, so they
   * yield no installer; only the fallback yields one.
   */
  function ForItem(value: string, urlparse: string -> UrlParts): (r: Option<Installer>)
    ensures r.Some? <==> Classify(value, urlparse) == Command
    ensures r.Some? <==> !IsBrewName(value) && !HasLocation(urlparse(value))
    ensures r.Some? ==> r.value.command == value
  {
    match Classify(value, urlparse)
    case Brew => None
    case Url => None
    case Command => Some(CommandInstaller(value))
  }

  datatype Action = Install | Remove | Update

  /**
   * An installer carrying out an action. `CommandInstaller` overrides only
   * `install`, which spawns its command with `shell=True`; `remove` and
   * `update` are the base class's empty methods.
   */
  function Perform(installer: Installer, action: Action): (effects: seq<Effect>)
    ensures RunCount(effects) == (if action == Install then 1 else 0)
    ensures forall e :: e in effects ==> e == Run(installer.command, true)
  {
    match action
    case Install =>
      assert [Run(installer.command, true)][1..] == [];
      [Run(installer.command, true)]
    case Remove => []
    case Update => []
  }

  /** An item as snixItem.py holds it: a name and whatever `forItem` returned. */
  datatype Item = Item(name: string, installer: Option<Installer>)

  function Verb(action: Action): string
  {
    match action
    case Install => "Installing"
    case Remove => "Removing"
    case Update => "Updating"
  }

  /**
   * `Item.install`, `Item.remove`, `Item.update`: log the action with the
   * item's name, then call the installer's method of the same name once.
   * With no installer the call fails after the log line.
   */
  function ItemPerform(item: Item, action: Action): (t: Trace)
    ensures |t.effects| >= 1 && t.effects[0] == Log(Verb(action) + " " + item.name)
    ensures item.installer.None? ==> t == Trace([Log(Verb(action) + " " + item.name)], Some(NoInstaller))
    ensures item.installer.Some? ==> t.failure.None? && t.effects[1..] == Perform(item.installer.value, action)
  {
    var logLine := Log(Verb(action) + " " + item.name);
    match item.installer
    case None => Trace([logLine], Some(NoInstaller))
    case Some(installer) => Trace([logLine] + Perform(installer, action), None)
  }

  /** `^brew$` under `re.I` accepts exactly "brew" in any letter case. */
  lemma BrewOnlyMeaning(value: string)
    ensures Matches(BrewOnlyPattern, value, true) <==> Fold(value) == "brew"
  {
    ClassesThen(BrewOnlyPattern, [], value, true);
    assert BrewOnlyPattern + [] == BrewOnlyPattern;
    if |value| == 4 {
      assert value[..4] == value;
      forall i | 0 <= i < 4 ensures InClass(BrewOnlyPattern[i].chars, value[i], true) <==> Lower(value[i]) == "brew"[i] {
        InClassIgnoreCase(BrewOnlyPattern[i].chars, value[i]);
      }
      assert Fold(value) == "brew" <==> forall i :: 0 <= i < 4 ==> Fold(value)[i] == "brew"[i];
    }
  }

  /** The test as `re.match` applies it, trailing newline included, stated without the regex. */
  lemma BrewNameMeaning(value: string)
    ensures ReMatch(BrewOnlyPattern, value, true) <==> IsBrewName(value)
  {
    BrewOnlyMeaning(value);
    if |value| > 0 {
      BrewOnlyMeaning(value[..|value| - 1]);
    }
  }

  /** A value the factory turns into an installer is run, unchanged and through a shell, when its item is installed. */
  lemma {:induction false} RawCommandRunsVerbatim(name: string, value: string, urlparse: string -> UrlParts)
    requires !IsBrewName(value) && !HasLocation(urlparse(value))
    ensures ItemPerform(Item(name, ForItem(value, urlparse)), Install)
         == Trace([Log("Installing " + name), Run(value, true)], None)
  {
    assert ForItem(value, urlparse) == Some(CommandInstaller(value));
    var t := ItemPerform(Item(name, ForItem(value, urlparse)), Install);
    assert Perform(CommandInstaller(value), Install) == [Run(value, true)];
    assert t.effects[1..] == [Run(value, true)];
    assert Verb(Install) + " " + name == "Installing " + name;
    assert t.effects == [t.effects[0]] + t.effects[1..];
  }
}

=== FILE: strings.dfy ===
/** The few Python string operations the core relies on, over `seq<char>`. */
module Strings {

  /**
   * ASCII lower-casing. Python 2's `re.I` without `re.UNICODE` folds only
   * ASCII letters, so every other character is its own lower case.
   */
  function Lower(c: char): char
  {
    if 'A' <= c <= 'Z' then (c as int + 32) as char else c
  }

  /** `s` with every character lower-cased. */
  function Fold(s: string): string
  {
    seq(|s|, i requires 0 <= i < |s| => Lower(s[i]))
  }

  /**
   * Every character is ASCII. Python 2 formats a unicode argument into a
   * byte-string template by encoding it as ASCII, so only such strings
   * survive `"...{0}".format(s)`.
   */
  predicate IsAscii(s: string)
  {
    forall i :: 0 <= i < |s| ==> s[i] as int < 128
  }

  predicate EndsWith(s: string, suffix: string)
  {
    |suffix| <= |s| && s[|s| - |suffix|..] == suffix
  }

  function Digit(d: nat): char
    requires d < 10
  {
    "0123456789"[d]
  }

  /** Python's `str(n)` for a non-negative integer. */
  function NatToString(n: nat): string
    decreases n
  {
    if n < 10 then [Digit(n)] else NatToString(n / 10) + [Digit(n % 10)]
  }

  /** Python's `str(i)` for any integer. */
  function IntToString(i: int): string
  {
    if i < 0 then "-" + NatToString(-i) else NatToString(i)
  }

  /** Python's `sep.join(parts)`. */
  function JoinWith(sep: string, parts: seq<string>): string
    decreases |parts|
  {
    if |parts| == 0 then ""
    else if |parts| == 1 then parts[0]
    else parts[0] + sep + JoinWith(sep, parts[1..])
  }

  /**
   * Python's `s.split(sep)[-1]`: the text after the last `sep`, or all of
   * `s` when it has none.
   */
  function LastSegment(s: string, sep: char): (r: string)
    ensures |r| <= |s| && r == s[|s| - |r|..]
    ensures sep !in r
    ensures |r| < |s| ==> s[|s| - |r| - 1] == sep
    decreases |s|
  {
    if |s| == 0 then ""
    else if s[|s| - 1] == sep then ""
    else
      var init := LastSegment(s[..|s| - 1], sep);
      assert s[..|s| - 1][|s| - 1 - |init|..] + [s[|s| - 1]] == s[|s| - 1 - |init|..];
      init + [s[|s| - 1]]
  }

  /**
   * Python's `s.split(sep)[0]`: the text before the first `sep`, or all of
   * `s` when it has none.
   */
  function BeforeFirst(s: string, sep: char): (r: string)
    ensures |r| <= |s| && r == s[..|r|]
    ensures sep !in r
    ensures |r| < |s| ==> s[|r|] == sep
    decreases |s|
  {
    if |s| == 0 then ""
    else if s[0] == sep then ""
    else [s[0]] + BeforeFirst(s[1..], sep)
  }
}

=== FILE: wrappers.dfy ===
/** Option and Result, the failure-carrying values used throughout the model. */
module Wrappers {

  /** A value that may be absent: a missing JSON key, a function that falls off its end. */
  datatype Option<+T> = None | Some(value: T)

  /** A value, or the error that prevented computing it. */
  datatype Result<+T, +E> = Success(value: T) | Failure(error: E)
}
